=== FILE: README.md ===
# Blog API core, modelled in Dafny

This project models the blogging core of a small Express/Mongoose REST service. Authenticated users write posts. A post starts as a draft. Its owner may publish it, edit it or delete it. Anyone may list published posts and read them one at a time, and each read bumps the post's read counter.

The model covers:

- the six blog handlers: create, public listing, get-by-id, update, delete, owner listing;
- the reading-time estimate stored on each post;
- the Blog schema: defaults, the `state` enum, the unique title index, and the pre-save hook;
- the two access guards: `protect` and `optionalProtect`, with bearer-token extraction;
- the production branch of the global error middleware;
- the blog router, which says which guard runs before which handler.

The post collection is a `map` from post id to post, and every handler is a transition on it. Posts are filed under the store's canonical spelling of their ObjectId, 24 lower-case hex digits. A request id is cast the way the store casts it, so an upper-case spelling names the same post. Token verification is a parameter `verify`, because the signing key and the clock are not part of the model. The case-insensitive regular-expression test of the search is a parameter too, as `matches`, together with `compiles`, which says whether the store accepts the term as a pattern. The id a new post receives and the creation time are also parameters.

The modules follow the program's files:

| module | file | models |
|---|---|---|
| `Text` | text.dfy | JavaScript truthiness, white space, `split(' ')`, string order, decimal numerals, ObjectId shape |
| `ReadingTime` | reading_time.dfy | `calculateReadingTime` and an independent count of words |
| `BlogModel` | blog_model.dfy | the Blog schema, validation and the pre-save hook |
| `Errors` | errors.dfy | the errors the handlers, guards and store raise |
| `ErrorHandler` | error_handler.dfy | the production error middleware |
| `Listing` | listing.dfy | what the store does for `find().sort().skip().limit()` and `countDocuments` |
| `BlogController` | blog_controller.dfy | the six handlers |
| `AuthGuard` | auth_guard.dfy | `protect` and `optionalProtect` |
| `BlogRoutes` | routes.dfy | the router and one request served end to end |

### Behaviour worth knowing

- **Unmatched requests.** `tests/not_found.test.js` expects a JSON 404 envelope ("Can't find … on this server!") for unknown routes, but `app.js` installs no handler that produces one. An unmatched request under `/api/blogs` first passes `router.use(protect)`. Without a valid token it is answered 401. With one, it gets the framework's default 404 page, or the router's automatic reply for an OPTIONS request on a routed path. `BlogRoutes.Serve` models this.
- **Reading time goes stale on update.** The pre-save hook recalculates the estimate only when the body changes (`models/blog.model.js:45-48`), and only `save` runs it. Updates go through `findByIdAndUpdate`, which does not run the hook. An update that changes the body therefore leaves the old estimate in place (`BlogController.UpdateLeavesReadingTimeStale`).
- **Reading time sorts as text.** `reading_time` is a String field, so ordering by it compares numerals as text, and "10" sorts before "9" (`Listing.ReadingTimeSortsAsText`).
- **A draft's read count still goes up.** Get-by-id increments the counter before it checks visibility. A request for a draft is reported as not found, but the counter still rises (`BlogController.GetBlogById`, `BlogController.DraftToPublished`).

## Model

| member | source | states |
|---|---|---|
| ReadingTime.CalculateReadingTime | utils/blog.utils.js:6-13 | The estimate is at least one minute. It is the smallest number of 200-word minutes that covers the body's word count. |
| ReadingTime.MinutesFor | utils/blog.utils.js:7-12 | `Math.ceil(words / 200) \|\| 1` lies between (m-1)·200 (exclusive) and m·200 (inclusive) for any positive word count, and is 1 for none. |
| ReadingTime.TrimEnd | utils/blog.utils.js:9 | Trimming keeps a prefix that does not end in white space, and everything it drops is white space. |
| ReadingTime.WordCountIsRuns | utils/blog.utils.js:9 | `trim().split(/\s+/).length` equals the number of maximal non-white-space runs, an independent count of words, except that a wordless body counts 1. |
| ReadingTime.FallbackUnused | utils/blog.utils.js:12 | The rounded-up quotient is already at least 1, so the `\|\| 1` fallback never decides the result. |
| ReadingTime.MinuteBoundaries | utils/blog.utils.js:7-10 | 200 words is one minute, 201 words is two, 400 words is two. |
| ReadingTime.MinutesMonotone | utils/blog.utils.js:10 | More words never give fewer minutes. |
| ReadingTime.BlankBodyIsOneMinute | utils/blog.utils.js:9-12 | An empty or all-white-space body counts one word and one minute. |
| ReadingTime.OuterSpaceIgnored | utils/blog.utils.js:9 | White space around the body changes neither the word count nor the estimate. |
| ReadingTime.SpaceRunLengthIgnored | utils/blog.utils.js:9 | The length of a white-space gap between words changes neither the word count nor the estimate. |
| ReadingTime.LongerBodyNotShorter | utils/blog.utils.js:9-12 | Appending text after white space never lowers the estimate. |
| Text.DecimalString | models/blog.model.js:47 | The minute count stored in the String field is a non-empty digit string without a leading zero. |
| Text.ParseDecimalString | models/blog.model.js:47 | Reading that numeral back gives the number it was made from. |
| Text.Split | middlewares/auth.middleware.js:10 | `split(' ')` yields at least one piece, and no piece contains the separator. |
| Text.JoinSplit | middlewares/auth.middleware.js:10 | Joining the pieces of a split with the separator gives the original header back. |
| Text.SplitJoin | middlewares/auth.middleware.js:10 | Splitting a join of separator-free pieces gives those pieces back. |
| Text.CanonicalId | controllers/blog.controller.js:90-94 | The ObjectId a string casts to, written in lower case. It keeps the length, lower-cases each hex letter, and turns every valid id into a canonical one. |
| Text.CanonicalIdFixesCanonical | controllers/blog.controller.js:90-94 | A canonical spelling is its own canonical form and is a valid id. |
| Text.CanonicalIdIdempotent | controllers/blog.controller.js:90-94 | Casting an id that was already cast changes nothing, so an id read back from the store and sent again names the same post. |
| Text.UpperCaseSpellingIsSameId | controllers/blog.controller.js:90-94 | "507F1F77BCF86CD799439011" is a valid id whose canonical form is "507f1f77bcf86cd799439011". |
| BlogModel.ParseState | models/blog.model.js:21-25 | The enum accepts a state exactly when it is "draft" or "published", and the accepted state carries that spelling. |
| BlogModel.StateNameRoundTrip | models/blog.model.js:21-25 | Each state's stored spelling passes the enum and reads back as the same state. |
| BlogModel.StateOnCreate | controllers/blog.controller.js:15 | A missing or empty state becomes draft. Any other state is accepted exactly when the enum accepts it, and keeps its spelling. |
| BlogModel.SaveHook | models/blog.model.js:44-49 | The hook touches only the reading time. After a body change the stored estimate is the one for the current body. Without a body change the document is unchanged. |
| BlogModel.StoredReadingTimeDecodes | models/blog.model.js:30-32 | The stored String is all digits and decodes to the minute estimate of the body. |
| ErrorHandler.Classify | middlewares/error.middleware.js:29-97 | Token errors give 401 'fail' with the token messages. Cast, duplicate-key and validation errors give 400 'fail'. Other operational errors keep their own code, status and message after defaulting. Everything else gives 500 'error' with the generic message. The HTTP status is 400, 401, 500 or the error's own code. |
| ErrorHandler.ClassifyIsPriorityList | middlewares/error.middleware.js:32-85 | Five overrides applied in source order agree with a priority list: expired token, invalid token, validation, duplicate key, cast, own fields, generic. |
| ErrorHandler.HandBuiltFailuresPassThrough | middlewares/error.middleware.js:87-91 | A failure built by a handler or a guard (non-zero code, 'fail', operational) reaches the client with its own code and message. |
| ErrorHandler.MissingFieldsDefault | middlewares/error.middleware.js:4-5 | An operational error with no status code and no status answers 500 'error' with its own message. |
| Listing.SortEntries | controllers/blog.controller.js:73-75 | The store's sort returns a permutation of its input, ordered by the requested key. |
| Listing.Window | controllers/blog.controller.js:76-77 | `skip(k).limit(n)` returns the entries at positions k, k+1, … of the sorted list: at most n of them when n > 0, and all of them when n = 0. |
| Listing.Collect | controllers/blog.controller.js:73 | `find` lists every selected post exactly once, and nothing else. |
| Listing.FindSorted | controllers/blog.controller.js:73-75 | The selection is listed exactly once, sorted. |
| Listing.Query | controllers/blog.controller.js:73-81 | The page is the window of a sorted exact listing of the matches. `total` counts every match. Each entry is a stored match, and a positive `limit` bounds the page size. |
| Listing.ReadingTimeSortsAsText | controllers/blog.controller.js:66-67 | Sorting by reading time puts a 10-minute post ahead of a 9-minute one. |
| BlogController.CreateBlog | controllers/blog.controller.js:6-23 | Validation failures come before the duplicate-title check, and a failure leaves the collection alone. Success happens exactly when the input is valid and the title is free. The new post is then owned by the caller, has a read count of 0 and the defaulted state, carries the given fields and a current reading time, and is the only change. Unique titles are preserved. |
| BlogController.OrderOf | controllers/blog.controller.js:61-71 | `read_count` sorts by read count descending and `reading_time` by reading time ascending. Every other value, or none, sorts by timestamp descending. |
| BlogController.GetAllBlogs | controllers/blog.controller.js:25-85 | A search term the store rejects as a pattern fails first, with a store error that ends as a 500. Otherwise the listing fails exactly when a non-empty author is not an ObjectId, with a cast error. When it succeeds it lists only published posts matching the author (in any letter case), tag and search filters, sorted and windowed, with the total of all matches. |
| BlogController.GetBlogById | controllers/blog.controller.js:87-108 | A malformed id is a cast error and a missing id is not found; neither changes anything. The id names the post filed under its lower-case spelling. An existing post's read count rises by one and nothing else changes. The post is returned exactly when it is published, for any caller. |
| BlogController.RepeatedReadsCount | controllers/blog.controller.js:90-93 | n reads of an existing post raise its read count by exactly n and change nothing else. |
| BlogController.ApplyPatch | controllers/blog.controller.js:136-141 | Supplied fields replace the stored ones. Omitted fields, the author, the read count, the timestamp and the reading time stay. |
| BlogController.UpdateBlog | controllers/blog.controller.js:109-147 | Checks run in this order, each with its own error: cast error, not found, non-owner 403, validation, duplicate-key error on the title. Any failure changes nothing. Success happens exactly when every check passes, and then only the patched post changes. Unique titles are preserved. |
| BlogController.UpdateLeavesReadingTimeStale | controllers/blog.controller.js:137-141 | Take a post whose reading time was current and apply an update patch, as `UpdateBlog` does on success. If the new body has a different estimate, the stored reading time is no longer current. |
| BlogController.DraftToPublished | controllers/blog.controller.js:6-147 | A new post is a draft and is hidden from readers, though the read is counted. A stranger may not publish it; its owner may. It is then readable, with both reads counted. |
| BlogController.DeleteBlog | controllers/blog.controller.js:149-180 | Checks run in this order: cast error, not found, non-owner 403. Only the owner deletes, and then exactly that post is removed and every other post stays. |
| BlogController.CreateThenDeleteRestores | controllers/blog.controller.js:149-180 | Delete undoes create: the author deleting a post just created, under any spelling of its id, gets success, and the collection is exactly what it was before the create. |
| BlogController.RestoreInput | controllers/blog.controller.js:137-141 | Sending a post's own title, description, body, tags and state as an update puts those fields back, whatever post it is applied to. |
| BlogController.UpdateIsUndone | controllers/blog.controller.js:109-147 | An owner can undo an update by sending the previous fields back. The collection is then exactly as it was, given unique titles and previous fields that pass validation. |
| BlogController.IdSpellingIgnored | controllers/blog.controller.js:90-94 | Two spellings of one ObjectId that differ only in letter case give the same outcome and the same collection for get-by-id, update and delete. |
| BlogController.UpperCaseIdFindsPost | controllers/blog.controller.js:90-94 | A published post filed under a lower-case id is found, and its read counted, when asked for in upper case. |
| BlogController.StateFilter | controllers/blog.controller.js:192-197 | The state filter applies exactly when the parameter is "draft" or "published", and it selects that state. |
| BlogController.OtherStateFilterIgnored | controllers/blog.controller.js:192-197 | Any other state parameter lists the same posts as no parameter. |
| BlogController.GetMyBlogs | controllers/blog.controller.js:182-217 | The result holds only the caller's posts, drafts included, filtered by a valid state, newest first, windowed, with the total of all matches. |
| AuthGuard.ExtractToken | middlewares/auth.middleware.js:9-11 | A token is found only in a header starting with "Bearer". It is non-empty and holds no space. |
| AuthGuard.TokenIsSecondSegment | middlewares/auth.middleware.js:9-11 | The extracted token is t exactly when the header starts with "Bearer" and reads `<scheme> t<rest>`, where the scheme has no space, t is non-empty without spaces, and the rest is empty or starts with a space. |
| AuthGuard.Protect | middlewares/auth.middleware.js:4-47 | No token gives "no token", a failed verification gives "token failed", and an unknown user gives "user no longer exists". Every rejection is a 401 operational error. A token that verifies to an existing user always proceeds, with exactly that user and their record attached, and a request proceeds only in that case. |
| AuthGuard.OptionalProtect | middlewares/auth.middleware.js:49-72 | The optional guard never rejects. It attaches a user exactly when a token is present, verifies, and names an existing user. |
| AuthGuard.OptionalMirrorsProtect | middlewares/auth.middleware.js:49-72 | The optional guard attaches what `protect` would, and turns each rejection of `protect` into an anonymous request. |
| BlogRoutes.Dispatch | routes/blog.route.js:6-18 | `GET /` runs the public listing unguarded, and `GET /me` runs the owner listing behind `protect`. `GET /:id` runs get-by-id with the optional guard, for any id but `me`. `POST /`, `PATCH /:id` and `DELETE /:id` run create, update and delete behind `protect`. An OPTIONS request on a routed path gets the router's verb list behind `protect`. Exactly the remaining requests have no handler, and those also pass `protect`. |
| BlogRoutes.OptionsListsRoutedVerbs | routes/blog.route.js:7-18 | The verbs the router lists for OPTIONS on a path are exactly the verbs that reach a handler on that path. |
| BlogRoutes.MeIsNeverAnId | routes/blog.route.js:6-11 | A single-segment GET reaches the post handler exactly when the segment is not `me`; `me` reaches the owner listing. |
| BlogRoutes.ServePublicListing | routes/blog.route.js:10 | `GET /` answers with the public listing's outcome: 200 with the page of exactly the published matches, sorted, windowed and counted, or the listing's failure, which is the generic 500 for a rejected pattern and a 400 for an author that is not an ObjectId. |
| BlogRoutes.ServeOwnListing | routes/blog.route.js:7 | `GET /me` answers 200 with the owner listing: only the caller's stored posts, with the state filter applied, newest first, windowed, and with the total of all of them. |
| BlogRoutes.Serve | routes/blog.route.js:6-18 | The user table never changes. Unique titles and canonical post ids are preserved. A request behind `protect` without valid credentials is answered 401 and changes nothing. `GET /:id` answers only 200, 400 or 404. Any error answer except get-by-id changes nothing. Once the guard lets a request through, the handler the route names runs: create, get-by-id, update and delete leave exactly the collection their handler leaves. The handler's post is answered 201 for create and 200 otherwise, delete answers 200 with no data, and a handler failure goes through the error middleware. Both listings leave the collection unchanged. `GET /` answers exactly what the public listing yields, and `GET /me` answers 200 with the caller's own listing. An authenticated OPTIONS request on a routed path gets 200 with the routed verbs. Any other authenticated unmatched request gets the default 404. |

## Left out

- Logging, the development branch of the error middleware, and the stack trace it returns: these produce diagnostics, not behaviour.
- The auth controller, the user schema (password hashing, email uniqueness), the seed script, the server and the application bootstrap: outside the blog core.
- Populating the author field (`populate('author', …)`): it changes only how the author is rendered in the reply.
- JSON rendering of replies, including `null` fields and the top-level `read_count` of get-by-id.
- Signature checking, expiry and the `NotBeforeError` of the JWT library: verification is the parameter `verify`, which yields a user id, "malformed" or "expired".
- Regular-expression semantics of the search: the parameters `matches(field, term)` and `compiles(term)`.
- Concurrency: each request runs alone against a snapshot of the collection. The read-then-write races between concurrent update and delete are not modelled.
- Route matching details of the framework: case-insensitive paths, trailing slashes, HEAD requests and percent-decoding of path segments. Paths are lists of non-empty segments.
- BlogRoutes.RoutedVerbs: the router's OPTIONS reply also lists HEAD after GET, and the model leaves HEAD out like HEAD requests themselves.
- The 12-byte string form of an ObjectId: only 24-hex-digit strings count as ids.
- BlogController.GetAllBlogs: `page` must be at least 1 and `limit` is a natural number, where 0 means no bound. A `page` of `NaN`, 0 or below and a negative or `NaN` `limit` from `parseInt` are not modelled.
- BlogController.GetAllBlogs: a store failure other than a rejected pattern or a cast error, such as a lost connection, is not modelled.
- BlogController.GetMyBlogs: the same `page`/`limit` precondition as the public listing.
- BlogRoutes.Serve: the same `page`/`limit` precondition, plus a fresh post id supplied by the database.
- ErrorHandler.Classify: messages built from error details (the cast path and value, the duplicated value, the joined validator messages) are abstract message kinds, not their texts.
- BlogModel.ValidNew: a validation error is one `ValidationError`. The validators' individual messages and their order are not modelled.
- AuthGuard.Protect: the id in a verified token is taken as the canonical id the service signed for a stored user. A malformed or upper-case id in a token is not modelled. The first would surface as a 400 cast error from the user lookup; the second would find the same user.
- AuthGuard.OptionalProtect: the same assumption about the id in a verified token.
- BlogController.UpdateBlog: fields sent as JSON `null` are not modelled. A field is either supplied with a value or left out, and a left-out field is left untouched.

=== FILE: auth_guard.dfy ===
/** The access guard: pulling a bearer token out of the Authorization header,
    and the two middlewares around it. `protect` rejects a request it cannot
    authenticate; `optionalProtect` lets it through as anonymous. Signature and
    expiry checking is the `verify` parameter; the user lookup is the user table. */
module AuthGuard {
  import opened Text
  import opened Errors
  import opened BlogModel

  /** What verifying a token can yield: the id it was issued for, a malformed
      or badly signed token (JsonWebTokenError), or an expired one (TokenExpiredError). */
  datatype VerifyOutcome = Verified(id: UserId) | Malformed | Expired

  /** The user a guard attaches to the request. */
  datatype Identity = Identity(id: UserId, user: User)

  /** A guard lets the request continue, with or without a user, or passes an error on. */
  datatype GuardResult = Proceed(caller: Option<Identity>) | Reject(error: AppError)

  const BearerScheme := "Bearer"

  /** The token of an Authorization header: the header must start with "Bearer"
      and the token is the second piece of `header.split(' ')`, which must be
      non-empty. */
  function ExtractToken(header: Option<string>): (token: Option<string>)
    ensures token.Some? ==> header.Some? && StartsWith(header.value, BearerScheme)
    ensures token.Some? ==> token.value != [] && ' ' !in token.value
    ensures header.Some? && !StartsWith(header.value, BearerScheme) ==> token.None?
  {
    if Truthy(header) && StartsWith(header.value, BearerScheme) then
      var pieces := Split(header.value, ' ');
      if |pieces| >= 2 && pieces[1] != [] then Some(pieces[1]) else None
    else None
  }

  /** `header` is `<scheme> <token><rest>`, where the scheme holds no space and
      the rest is empty or starts with a space. */
  predicate SplitsAround(header: string, scheme: string, token: string, rest: string) {
    && header == scheme + " " + token + rest
    && ' ' !in scheme
    && (rest == [] || rest[0] == ' ')
  }

  /** A header starting with the scheme whose second space-separated segment is
      `token`, a non-empty string without spaces. */
  ghost predicate BearerShape(header: string, token: string) {
    && StartsWith(header, BearerScheme)
    && token != [] && ' ' !in token
    && exists scheme, rest :: SplitsAround(header, scheme, token, rest)
  }

  /** The extracted token is exactly the second space-separated segment. */
  lemma TokenIsSecondSegment(header: string, token: string)
    ensures ExtractToken(Some(header)) == Some(token) <==> BearerShape(header, token)
  {
    if ExtractToken(Some(header)) == Some(token) {
      ExtractedTokenHasShape(header, token);
    }
    if BearerShape(header, token) {
      var scheme, rest :| SplitsAround(header, scheme, token, rest);
      SecondSegmentOf(scheme, token, rest);
    }
  }

  lemma ExtractedTokenHasShape(header: string, token: string)
    requires ExtractToken(Some(header)) == Some(token)
    ensures BearerShape(header, token)
  {
    assert |Split(header, ' ')| >= 2 && Split(header, ' ')[1] == token;
    var scheme, rest := SecondPiece(header);
    ShapeFromParts(header, scheme, token, rest);
  }

  lemma ShapeFromParts(header: string, scheme: string, token: string, rest: string)
    requires header == scheme + " " + token + rest
    requires StartsWith(header, BearerScheme) && token != [] && ' ' !in token
    requires ' ' !in scheme && (rest == [] || rest[0] == ' ')
    ensures BearerShape(header, token)
  {
    assert SplitsAround(header, scheme, token, rest);
  }

  /** The parts around the second piece of a split on spaces. */
  lemma SecondPiece(header: string) returns (scheme: string, rest: string)
    requires |Split(header, ' ')| >= 2
    ensures header == scheme + " " + Split(header, ' ')[1] + rest
    ensures ' ' !in scheme && (rest == [] || rest[0] == ' ')
  {
    var i := IndexOf(header, ' ');
    SplitStep(header, ' ');
    var tail := header[i + 1..];
    var j := IndexOf(tail, ' ');
    SplitStep(tail, ' ');
    assert Split(header, ' ')[1] == tail[..j];
    scheme, rest := header[..i], tail[j..];
    Reassemble(header, i, tail, j);
  }

  /** A string cut at a separator and again inside the remainder is the
      concatenation of its three parts around the separator. */
  lemma Reassemble(header: string, i: nat, tail: string, j: nat)
    requires i < |header| && header[i] == ' ' && tail == header[i + 1..] && j <= |tail|
    ensures header == header[..i] + " " + tail[..j] + tail[j..]
  {
    assert tail[..j] + tail[j..] == tail;
    assert header == header[..i] + [header[i]] + header[i + 1..];
  }

  lemma SecondSegmentOf(scheme: string, token: string, rest: string)
    requires ' ' !in scheme && ' ' !in token && token != []
    requires rest == [] || rest[0] == ' '
    ensures |Split(scheme + " " + token + rest, ' ')| >= 2
    ensures Split(scheme + " " + token + rest, ' ')[1] == token
  {
    var tail := token + rest;
    assert scheme + " " + token + rest == scheme + [' '] + tail;
    SplitAfterPiece(scheme, tail, ' ');
    FirstPiece(token, rest, ' ');
  }

  /** protect: no token, a token that fails verification, or a verified id with
      no user behind it are all 401 'fail'; otherwise the user is attached. */
  function Protect(header: Option<string>, verify: string -> VerifyOutcome, users: Users): (g: GuardResult)
    ensures ExtractToken(header).None? ==> g == Reject(NoToken)
    ensures ExtractToken(header).Some? && !verify(ExtractToken(header).value).Verified? ==> g == Reject(TokenFailed)
    ensures (ExtractToken(header).Some? && verify(ExtractToken(header).value).Verified?
             && verify(ExtractToken(header).value).id !in users) ==> g == Reject(UserGone)
    ensures g.Reject? ==> g.error.statusCode == Some(401) && g.error.isOperational
    ensures g.Proceed? ==>
              && g.caller.Some?
              && ExtractToken(header).Some?
              && verify(ExtractToken(header).value) == Verified(g.caller.value.id)
              && g.caller.value.id in users && users[g.caller.value.id] == g.caller.value.user
    ensures (ExtractToken(header).Some? && verify(ExtractToken(header).value).Verified?
             && verify(ExtractToken(header).value).id in users) ==>
              var id := verify(ExtractToken(header).value).id;
              g == Proceed(Some(Identity(id, users[id])))
  {
    match ExtractToken(header)
    case None => Reject(NoToken)
    case Some(token) =>
      match verify(token)
      case Malformed => Reject(TokenFailed)
      case Expired => Reject(TokenFailed)
      case Verified(id) =>
        if id in users then Proceed(Some(Identity(id, users[id]))) else Reject(UserGone)
  }

  /** optionalProtect: never rejects. A user is attached exactly when a token is
      present, verifies, and names an existing user. */
  function OptionalProtect(header: Option<string>, verify: string -> VerifyOutcome, users: Users): (g: GuardResult)
    ensures g.Proceed?
    ensures g.caller.Some? <==>
              && ExtractToken(header).Some?
              && verify(ExtractToken(header).value).Verified?
              && verify(ExtractToken(header).value).id in users
    ensures g.caller.Some? ==>
              && verify(ExtractToken(header).value) == Verified(g.caller.value.id)
              && users[g.caller.value.id] == g.caller.value.user
  {
    match ExtractToken(header)
    case None => Proceed(None)
    case Some(token) =>
      match verify(token)
      case Verified(id) => if id in users then Proceed(Some(Identity(id, users[id]))) else Proceed(None)
      case _ => Proceed(None)
  }

  /** The optional guard attaches exactly what the mandatory one would, and
      turns each of its rejections into an anonymous request. */
  lemma OptionalMirrorsProtect(header: Option<string>, verify: string -> VerifyOutcome, users: Users)
    ensures Protect(header, verify, users).Proceed? ==>
              OptionalProtect(header, verify, users) == Protect(header, verify, users)
    ensures Protect(header, verify, users).Reject? ==>
              OptionalProtect(header, verify, users) == Proceed(None)
  {
  }
}

=== FILE: blog_controller.dfy ===
/** The blog handlers: create, the public listing, get-by-id, update, delete and
    the owner listing. Each is a transition from the post collection, the
    caller and the request fields to an outcome and the collection afterwards.
    The caller's id is the one the guard attached. */
module BlogController {
  import opened Text
  import opened Errors
  import opened BlogModel
  import opened Listing

  /** An outcome together with the post collection after the handler ran. */
  datatype Step<T> = Step(result: Outcome<T>, posts: Posts)

  // ---------------------------------------------------------------------------
  // Create

  /** createBlog. The database supplies `newId` (a fresh id) and `now` (the
      default timestamp). The caller becomes the author, the state defaults to
      draft, the read count starts at 0 and the save hook stores the reading
      time. Validation failures come before the unique-title check, and a
      failure leaves the collection untouched. */
  function CreateBlog(posts: Posts, caller: UserId, newId: PostId, now: int, input: PostInput): (r: Step<Post>)
    requires newId !in posts
    ensures r.result.Failed? ==> r.posts == posts
    ensures !ValidNew(input) ==> r.result == Failed(ValidationFailure)
    ensures ValidNew(input) && TitleTaken(posts, input.title.value, None) ==>
              r.result == Failed(DuplicateKey("title", input.title.value))
    ensures r.result.Done? <==> ValidNew(input) && !TitleTaken(posts, input.title.value, None)
    ensures r.result.Done? ==>
              var p := r.result.value;
              && r.posts == posts[newId := p]
              && p.author == caller
              && p.readCount == InitialReadCount
              && (!Truthy(input.state) ==> p.state == DefaultState)
              && (Truthy(input.state) ==> StateName(p.state) == input.state.value)
              && Some(p.title) == input.title && Some(p.body) == input.body
              && p.description == input.description
              && p.tags == input.tags.GetOr([])
              && p.timestamp == now
              && ReadingTimeCurrent(p)
    ensures UniqueTitles(posts) ==> UniqueTitles(r.posts)
    ensures CanonicalKeys(posts) && IsCanonicalId(newId) ==> CanonicalKeys(r.posts)
  {
    if !ValidNew(input) then Step(Failed(ValidationFailure), posts)
    else if TitleTaken(posts, input.title.value, None) then
      Step(Failed(DuplicateKey("title", input.title.value)), posts)
    else
      var doc := Post(
        input.title.value, input.body.value, input.description, caller,
        StateOnCreate(input.state).value, InitialReadCount, None,
        input.tags.GetOr([]), now);
      var saved := SaveHook(doc, true);
      assert forall id :: id in posts ==> posts[id].title != saved.title;
      Step(Done(saved), posts[newId := saved])
  }

  // ---------------------------------------------------------------------------
  // Public listing

  /** The query string of the public listing; `None` is a parameter left out.
      `page` and `limit` are the already-parsed integers. */
  datatype ListQuery = ListQuery(
    search: Option<string>,
    author: Option<string>,
    tag: Option<string>,
    orderBy: Option<string>,
    page: Option<nat>,
    limit: Option<nat>)

  /** The paging parameters the handler can pass to the store: a page of at
      least 1. A limit of 0 is passed on and means no bound. */
  predicate PagingWellFormed(page: Option<nat>, limit: Option<nat>) {
    page.Some? ==> page.value >= 1
  }

  /** The sort the listing asks for: `read_count` descending, `reading_time`
      ascending, and `timestamp` descending for `timestamp`, any other value or none. */
  function OrderOf(orderBy: Option<string>): (order: SortOrder)
    ensures order == ByReadCountDesc <==> orderBy == Some("read_count")
    ensures order == ByReadingTimeAsc <==> orderBy == Some("reading_time")
    ensures order == ByTimestampDesc <==> orderBy != Some("read_count") && orderBy != Some("reading_time")
  {
    var order := ByTimestampDesc;
    if Truthy(orderBy) then
      if orderBy.value == "read_count" then ByReadCountDesc
      else if orderBy.value == "reading_time" then ByReadingTimeAsc
      else if orderBy.value == "timestamp" then ByTimestampDesc
      else order
    else order
  }

  /** The users whose first or last name matches the search term. */
  function UsersMatching(users: Users, term: string, matches: (string, string) -> bool): set<UserId> {
    set u | u in users && (matches(users[u].firstName, term) || matches(users[u].lastName, term))
  }

  /** The `$or` clause of a search: title, description or some tag matches, or
      the author is one of the matching users. */
  predicate SearchHit(p: Post, term: string, authors: set<UserId>, matches: (string, string) -> bool) {
    || matches(p.title, term)
    || (p.description.Some? && matches(p.description.value, term))
    || (exists t :: t in p.tags && matches(t, term))
    || p.author in authors
  }

  /** The filter of the public listing: published only, narrowed by each truthy
      parameter. */
  predicate PublicFilter(p: Post, users: Users, q: ListQuery, matches: (string, string) -> bool) {
    && p.state == Published
    && (Truthy(q.search) ==> SearchHit(p, q.search.value, UsersMatching(users, q.search.value, matches), matches))
    && (Truthy(q.author) ==> p.author == CanonicalId(q.author.value))
    && (Truthy(q.tag) ==> q.tag.value in p.tags)
  }

  function PublicMatches(posts: Posts, users: Users, q: ListQuery, matches: (string, string) -> bool): set<PostId> {
    set id | id in posts && PublicFilter(posts[id], users, q, matches)
  }

  /** A search term the store rejects as a regular expression. */
  predicate BadPattern(q: ListQuery, compiles: string -> bool) {
    Truthy(q.search) && !compiles(q.search.value)
  }

  /** What the public listing answers: a bad pattern fails first, then an author
      that is not an ObjectId; otherwise the page holds exactly the published
      matches, sorted and windowed, and the total counts them all. */
  ghost predicate PublicListing(posts: Posts, users: Users, q: ListQuery,
                                matches: (string, string) -> bool, compiles: string -> bool, r: Outcome<Page>)
  {
    && PagingWellFormed(q.page, q.limit)
    && (r.Failed? <==> BadPattern(q, compiles) || (Truthy(q.author) && !IsObjectId(q.author.value)))
    && (BadPattern(q, compiles) ==> r == Failed(InvalidPattern))
    && (!BadPattern(q, compiles) && r.Failed? ==> r.error == CastFailure("author", q.author.value))
    && (r.Done? ==>
          var page := q.page.GetOr(DefaultPage);
          var limit := q.limit.GetOr(DefaultLimit);
          var ids := PublicMatches(posts, users, q, matches);
          && r.value.page == page && r.value.limit == limit
          && r.value.total == |ids|
          && (limit > 0 ==> |r.value.data| <= limit)
          && Sorted(OrderOf(q.orderBy), r.value.data)
          && (forall e :: e in r.value.data ==>
                && e.id in posts && e.post == posts[e.id]
                && e.post.state == Published
                && (Truthy(q.author) ==> e.post.author == CanonicalId(q.author.value))
                && (Truthy(q.tag) ==> q.tag.value in e.post.tags))
          && exists all :: ListsExactly(posts, ids, all) && Sorted(OrderOf(q.orderBy), all)
                           && r.value.data == Window(all, Skip(page, limit), limit))
  }

  /** getAllBlogs. `matches(field, term)` stands for the case-insensitive regular
      expression test of the search, and `compiles(term)` for the store accepting
      the term as a pattern. The user search runs first, so a bad pattern fails
      before anything else; then an author parameter that is not an ObjectId
      makes the store raise a CastError. An author id matches in any letter case. */
  method GetAllBlogs(posts: Posts, users: Users, q: ListQuery,
                     matches: (string, string) -> bool, compiles: string -> bool)
    returns (r: Outcome<Page>)
    requires PagingWellFormed(q.page, q.limit)
    ensures PublicListing(posts, users, q, matches, compiles, r)
  {
    if BadPattern(q, compiles) {
      return Failed(InvalidPattern);
    }
    if Truthy(q.author) && !IsObjectId(q.author.value) {
      return Failed(CastFailure("author", q.author.value));
    }
    var ids := PublicMatches(posts, users, q, matches);
    var listing := Query(posts, ids, OrderOf(q.orderBy), q.page.GetOr(DefaultPage), q.limit.GetOr(DefaultLimit));
    return Done(listing);
  }

  // ---------------------------------------------------------------------------
  // Get by id

  /** `after` is `before` with the read count of `id` one higher, and nothing else changed. */
  ghost predicate ReadCounted(before: Posts, after: Posts, id: PostId)
    requires id in before
  {
    && after.Keys == before.Keys
    && after[id].readCount == before[id].readCount + 1
    && after[id].(readCount := before[id].readCount) == before[id]
    && forall k :: k in before && k != id ==> after[k] == before[k]
  }

  /** getBlogById. The id is cast to an ObjectId, so it names the post filed
      under its canonical spelling. The read count of an existing post goes up
      first; only then is a missing or unpublished post reported as not found.
      Who is asking is never consulted, so a draft is not found even for its author. */
  function GetBlogById(posts: Posts, id: PostId): (r: Step<Post>)
    ensures !IsObjectId(id) ==> r == Step(Failed(CastFailure("_id", id)), posts)
    ensures IsObjectId(id) && CanonicalId(id) !in posts ==> r == Step(Failed(BlogNotFound), posts)
    ensures IsObjectId(id) && CanonicalId(id) in posts ==> ReadCounted(posts, r.posts, CanonicalId(id))
    ensures r.result.Done? <==>
              IsObjectId(id) && CanonicalId(id) in posts && posts[CanonicalId(id)].state == Published
    ensures r.result.Done? ==> CanonicalId(id) in r.posts && r.result.value == r.posts[CanonicalId(id)]
    ensures IsObjectId(id) && r.result.Failed? ==> r.result.error == BlogNotFound
    ensures UniqueTitles(posts) ==> UniqueTitles(r.posts)
  {
    if !IsObjectId(id) then Step(Failed(CastFailure("_id", id)), posts)
    else if CanonicalId(id) !in posts then Step(Failed(BlogNotFound), posts)
    else
      var key := CanonicalId(id);
      var read := posts[key].(readCount := posts[key].readCount + 1);
      var after := posts[key := read];
      if read.state != Published then Step(Failed(BlogNotFound), after)
      else Step(Done(read), after)
  }

  /** The collection after `n` successive reads of `id`. */
  function ReadRepeatedly(posts: Posts, id: PostId, n: nat): Posts {
    if n == 0 then posts else ReadRepeatedly(GetBlogById(posts, id).posts, id, n - 1)
  }

  /** N reads of an existing post leave its read count N higher and change nothing else. */
  lemma {:induction false} RepeatedReadsCount(posts: Posts, id: PostId, n: nat)
    requires IsObjectId(id) && CanonicalId(id) in posts
    ensures var after := ReadRepeatedly(posts, id, n);
            var key := CanonicalId(id);
            && after.Keys == posts.Keys
            && after[key].readCount == posts[key].readCount + n
            && after[key].(readCount := posts[key].readCount) == posts[key]
            && forall k :: k in posts && k != key ==> after[k] == posts[k]
  {
    if n > 0 {
      var next := GetBlogById(posts, id).posts;
      assert ReadCounted(posts, next, CanonicalId(id));
      RepeatedReadsCount(next, id, n - 1);
    }
  }

  // ---------------------------------------------------------------------------
  // Update

  /** `after` is `before` with the supplied fields replaced. Author, read count,
      timestamp and the stored reading time stay as they were: the update does
      not go through the save hook. */
  ghost predicate Patched(before: Post, input: PostInput, after: Post) {
    && after.title == input.title.GetOr(before.title)
    && after.description == (if input.description.Some? then input.description else before.description)
    && after.body == input.body.GetOr(before.body)
    && after.tags == input.tags.GetOr(before.tags)
    && (input.state.None? ==> after.state == before.state)
    && (input.state.Some? ==> StateName(after.state) == input.state.value)
    && after.author == before.author
    && after.readCount == before.readCount
    && after.timestamp == before.timestamp
    && after.readingTime == before.readingTime
  }

  /** The document `findByIdAndUpdate` returns: each supplied field replaces the stored one. */
  function ApplyPatch(p: Post, input: PostInput): (r: Post)
    requires ValidPatch(input)
    ensures Patched(p, input, r)
  {
    p.(title := input.title.GetOr(p.title),
       description := if input.description.Some? then input.description else p.description,
       body := input.body.GetOr(p.body),
       tags := input.tags.GetOr(p.tags),
       state := if input.state.Some? then ParseState(input.state.value).value else p.state)
  }

  /** updateBlog. Not found comes before the owner check, the owner check before
      validation and the unique-title check, and every failure leaves the
      collection untouched. The id names the post filed under its canonical spelling. */
  function UpdateBlog(posts: Posts, caller: UserId, id: PostId, input: PostInput): (r: Step<Post>)
    ensures r.result.Failed? ==> r.posts == posts
    ensures !IsObjectId(id) ==> r.result == Failed(CastFailure("_id", id))
    ensures IsObjectId(id) && CanonicalId(id) !in posts ==> r.result == Failed(BlogNotFound)
    ensures IsObjectId(id) && CanonicalId(id) in posts && posts[CanonicalId(id)].author != caller ==>
              r.result == Failed(NotAllowedToUpdate)
    ensures IsObjectId(id) && CanonicalId(id) in posts && posts[CanonicalId(id)].author == caller
            && !ValidPatch(input) ==>
              r.result == Failed(ValidationFailure)
    ensures IsObjectId(id) && CanonicalId(id) in posts && posts[CanonicalId(id)].author == caller
            && ValidPatch(input) && input.title.Some? && TitleTaken(posts, input.title.value, Some(CanonicalId(id))) ==>
              r.result == Failed(DuplicateKey("title", input.title.value))
    ensures r.result.Done? <==>
              && IsObjectId(id) && CanonicalId(id) in posts && posts[CanonicalId(id)].author == caller
              && ValidPatch(input)
              && !(input.title.Some? && TitleTaken(posts, input.title.value, Some(CanonicalId(id))))
    ensures r.result.Done? ==>
              && CanonicalId(id) in posts
              && r.posts == posts[CanonicalId(id) := r.result.value]
              && Patched(posts[CanonicalId(id)], input, r.result.value)
    ensures UniqueTitles(posts) ==> UniqueTitles(r.posts)
  {
    if !IsObjectId(id) then Step(Failed(CastFailure("_id", id)), posts)
    else if CanonicalId(id) !in posts then Step(Failed(BlogNotFound), posts)
    else
      var key := CanonicalId(id);
      if posts[key].author != caller then Step(Failed(NotAllowedToUpdate), posts)
      else if !ValidPatch(input) then Step(Failed(ValidationFailure), posts)
      else if input.title.Some? && TitleTaken(posts, input.title.value, Some(key)) then
        Step(Failed(DuplicateKey("title", input.title.value)), posts)
      else
        var updated := ApplyPatch(posts[key], input);
        Step(Done(updated), posts[key := updated])
  }

  /** The stored reading time goes stale when an update changes the body's
      estimate: it was current before and is not after. `UpdateBlog` produces
      exactly such a patched post on success. */
  lemma UpdateLeavesReadingTimeStale(before: Post, input: PostInput, after: Post)
    requires ReadingTimeCurrent(before) && Patched(before, input, after)
    requires input.body.Some?
    requires ReadingTime.CalculateReadingTime(input.body.value) != ReadingTime.CalculateReadingTime(before.body)
    ensures !ReadingTimeCurrent(after)
  {
    StoredReadingTimeDecodes(before.body);
    StoredReadingTimeDecodes(input.body.value);
  }

  /** The life of one post. Created without a state it is a draft; a reader is
      told it does not exist, yet the look is counted; a stranger may not publish
      it; its owner may; after that readers see it, with both looks counted. */
  lemma DraftToPublished(id: PostId, owner: UserId, stranger: UserId, title: string, body: string)
    requires IsCanonicalId(id) && owner != stranger && title != [] && body != []
    ensures var publish := PostInput(None, None, None, None, Some("published"));
            var created := CreateBlog(map[], owner, id, 0, PostInput(Some(title), None, Some(body), None, None));
            var hidden := GetBlogById(created.posts, id);
            var published := UpdateBlog(hidden.posts, owner, id, publish);
            var read := GetBlogById(published.posts, id);
            && created.result.Done? && created.result.value.state == Draft
            && hidden.result == Failed(BlogNotFound)
            && UpdateBlog(hidden.posts, stranger, id, publish).result == Failed(NotAllowedToUpdate)
            && published.result.Done?
            && read.result.Done?
            && read.result.value.state == Published
            && read.result.value.readCount == 2
            && read.result.value.author == owner
  {
    CanonicalIdFixesCanonical(id);
  }

  // ---------------------------------------------------------------------------
  // Delete

  /** deleteBlog. Not found comes before the owner check; only the owner removes
      the post, and exactly that post. The id names the post filed under its
      canonical spelling. */
  function DeleteBlog(posts: Posts, caller: UserId, id: PostId): (r: Step<()>)
    ensures r.result.Failed? ==> r.posts == posts
    ensures !IsObjectId(id) ==> r.result == Failed(CastFailure("_id", id))
    ensures IsObjectId(id) && CanonicalId(id) !in posts ==> r.result == Failed(BlogNotFound)
    ensures IsObjectId(id) && CanonicalId(id) in posts && posts[CanonicalId(id)].author != caller ==>
              r.result == Failed(NotAllowedToDelete)
    ensures r.result.Done? <==>
              IsObjectId(id) && CanonicalId(id) in posts && posts[CanonicalId(id)].author == caller
    ensures r.result.Done? ==>
              && r.posts.Keys == posts.Keys - {CanonicalId(id)}
              && forall k :: k in r.posts ==> r.posts[k] == posts[k]
    ensures UniqueTitles(posts) ==> UniqueTitles(r.posts)
  {
    if !IsObjectId(id) then Step(Failed(CastFailure("_id", id)), posts)
    else if CanonicalId(id) !in posts then Step(Failed(BlogNotFound), posts)
    else if posts[CanonicalId(id)].author != caller then Step(Failed(NotAllowedToDelete), posts)
    else Step(Done(()), posts - {CanonicalId(id)})
  }

  /** Deleting a post right after creating it, as its author and under any
      spelling of its id, gives back the collection as it was before the create. */
  lemma CreateThenDeleteRestores(posts: Posts, caller: UserId, newId: PostId, now: int, input: PostInput, spelling: PostId)
    requires newId !in posts
    requires IsObjectId(spelling) && CanonicalId(spelling) == newId
    requires CreateBlog(posts, caller, newId, now, input).result.Done?
    ensures DeleteBlog(CreateBlog(posts, caller, newId, now, input).posts, caller, spelling) == Step(Done(()), posts)
  {
  }

  /** The update that puts every editable field of a post back as it is. */
  function RestoreInput(p: Post): (input: PostInput)
    requires p.description.Some?
    ensures forall q: Post :: Patched(q, input, p.(author := q.author, readCount := q.readCount,
                                           timestamp := q.timestamp, readingTime := q.readingTime))
  {
    PostInput(Some(p.title), p.description, Some(p.body), Some(p.tags), Some(StateName(p.state)))
  }

  /** An owner can undo an update: sending the post's previous fields back
      restores the collection exactly, provided titles were unique and the
      post's fields pass the update validators. */
  lemma {:induction false} UpdateIsUndone(posts: Posts, caller: UserId, id: PostId, input: PostInput)
    requires UniqueTitles(posts)
    requires UpdateBlog(posts, caller, id, input).result.Done?
    requires var before := posts[CanonicalId(id)];
             before.title != [] && before.body != [] && before.description.Some?
    ensures UpdateBlog(UpdateBlog(posts, caller, id, input).posts, caller, id, RestoreInput(posts[CanonicalId(id)])).posts == posts
  {
    var key := CanonicalId(id);
    var before := posts[key];
    var first := UpdateBlog(posts, caller, id, input);
    var restore := RestoreInput(before);
    StateNameRoundTrip(before.state);
    assert ValidPatch(restore);
    assert !TitleTaken(first.posts, before.title, Some(key)) by {
      forall k | k in first.posts && k != key
        ensures first.posts[k].title != before.title
      {
        assert first.posts[k] == posts[k];
      }
    }
    var second := UpdateBlog(first.posts, caller, id, restore);
    assert second.result.Done?;
    var restored := second.result.value;
    assert Patched(first.posts[key], restore, restored);
    assert restored == before;
    assert second.posts == first.posts[key := before];
    assert second.posts == posts;
  }

  /** Ids are matched as ObjectIds: two spellings of the same id, differing only
      in the case of their letters, read, update and delete the same post with
      the same outcome. */
  lemma IdSpellingIgnored(posts: Posts, caller: UserId, a: PostId, b: PostId, input: PostInput)
    requires IsObjectId(a) && IsObjectId(b) && CanonicalId(a) == CanonicalId(b)
    ensures GetBlogById(posts, a) == GetBlogById(posts, b)
    ensures UpdateBlog(posts, caller, a, input) == UpdateBlog(posts, caller, b, input)
    ensures DeleteBlog(posts, caller, a) == DeleteBlog(posts, caller, b)
  {
  }

  /** A published post filed under "507f1f77bcf86cd799439011" is found, and its
      read counted, when asked for as "507F1F77BCF86CD799439011". */
  lemma UpperCaseIdFindsPost(posts: Posts)
    requires "507f1f77bcf86cd799439011" in posts && posts["507f1f77bcf86cd799439011"].state == Published
    ensures var r := GetBlogById(posts, "507F1F77BCF86CD799439011");
            && r.result.Done?
            && r.posts["507f1f77bcf86cd799439011"].readCount == posts["507f1f77bcf86cd799439011"].readCount + 1
  {
    UpperCaseSpellingIsSameId();
  }

  // ---------------------------------------------------------------------------
  // Owner listing

  /** The state filter of the owner listing: used only when it is exactly one of
      the two spellings. */
  function StateFilter(state: Option<string>): (r: Option<State>)
    ensures r.Some? <==> state == Some("draft") || state == Some("published")
    ensures r.Some? ==> Some(StateName(r.value)) == state
  {
    if Truthy(state) then ParseState(state.value) else None
  }

  function OwnMatches(posts: Posts, caller: UserId, state: Option<string>): set<PostId> {
    var filter := StateFilter(state);
    set id | id in posts && posts[id].author == caller && (filter.Some? ==> posts[id].state == filter.value)
  }

  /** Any state parameter other than the two spellings is the same as none. */
  lemma OtherStateFilterIgnored(posts: Posts, caller: UserId, state: Option<string>)
    requires state != Some("draft") && state != Some("published")
    ensures OwnMatches(posts, caller, state) == OwnMatches(posts, caller, None)
  {
  }

  /** What the owner listing answers: only the caller's own posts, drafts
      included, narrowed by a valid state filter, newest first and windowed,
      with the total of all of them. */
  ghost predicate OwnListing(posts: Posts, caller: UserId, state: Option<string>,
                             page: Option<nat>, limit: Option<nat>, r: Page)
  {
    && PagingWellFormed(page, limit)
    && r.page == page.GetOr(DefaultPage) && r.limit == limit.GetOr(DefaultLimit)
    && r.total == |OwnMatches(posts, caller, state)|
    && (r.limit > 0 ==> |r.data| <= r.limit)
    && Sorted(ByTimestampDesc, r.data)
    && (forall e :: e in r.data ==> e.id in posts && e.post == posts[e.id] && e.post.author == caller)
    && (state == Some("draft") ==> forall e :: e in r.data ==> e.post.state == Draft)
    && (state == Some("published") ==> forall e :: e in r.data ==> e.post.state == Published)
    && exists all :: ListsExactly(posts, OwnMatches(posts, caller, state), all) && Sorted(ByTimestampDesc, all)
                     && r.data == Window(all, Skip(r.page, r.limit), r.limit)
  }

  /** getMyBlogs: the caller's own posts, drafts included, newest first. */
  method GetMyBlogs(posts: Posts, caller: UserId, state: Option<string>, page: Option<nat>, limit: Option<nat>)
    returns (r: Page)
    requires PagingWellFormed(page, limit)
    ensures OwnListing(posts, caller, state, page, limit, r)
  {
    var ids := OwnMatches(posts, caller, state);
    r := Query(posts, ids, ByTimestampDesc, page.GetOr(DefaultPage), limit.GetOr(DefaultLimit));
  }
}

=== FILE: blog_model.dfy ===
/** The Blog schema: the fields of a post, their defaults, the two-value state
    enum, the validators that run on create and on update, the unique index on
    the title, and the pre-save hook that stores the reading time. Users are the
    records posts are owned by. */
module BlogModel {
  import opened Text
  import ReadingTime

  type PostId = string
  type UserId = string

  datatype State = Draft | Published

  /** The spelling the `state` path stores. */
  function StateName(s: State): string {
    match s
    case Draft => "draft"
    case Published => "published"
  }

  /** The enum validator of the `state` path: only the two spellings pass. */
  function ParseState(s: string): (r: Option<State>)
    ensures r.Some? <==> s == "draft" || s == "published"
    ensures r.Some? ==> StateName(r.value) == s
  {
    if s == "draft" then Some(Draft)
    else if s == "published" then Some(Published)
    else None
  }

  lemma StateNameRoundTrip(st: State)
    ensures ParseState(StateName(st)) == Some(st)
  {
  }

  const DefaultState: State := Draft
  const InitialReadCount: nat := 0

  /** A stored post. `readingTime` is a String field that only the save hook fills. */
  datatype Post = Post(
    title: string,
    body: string,
    description: Option<string>,
    author: UserId,
    state: State,
    readCount: nat,
    readingTime: Option<string>,
    tags: seq<string>,
    timestamp: int)

  /** A user as the blog core sees it; the password never reaches this core. */
  datatype User = User(firstName: string, lastName: string, email: string)

  type Posts = map<PostId, Post>

  /** Every post is filed under the store's own spelling of its id. */
  predicate CanonicalKeys(posts: Posts) {
    forall id :: id in posts ==> IsCanonicalId(id)
  }
  type Users = map<UserId, User>

  /** The post fields a request body may carry; `None` is a field the client left out. */
  datatype PostInput = PostInput(
    title: Option<string>,
    description: Option<string>,
    body: Option<string>,
    tags: Option<seq<string>>,
    state: Option<string>)

  // ---------------------------------------------------------------------------
  // Reading time and the pre-save hook

  /** The value the hook stores for a body: the minute count, cast to a String. */
  function ReadingTimeOf(body: string): string {
    DecimalString(ReadingTime.CalculateReadingTime(body))
  }

  /** The stored estimate is the one for the current body. */
  predicate ReadingTimeCurrent(p: Post) {
    p.readingTime == Some(ReadingTimeOf(p.body))
  }

  /** pre('save'): when the body was modified the estimate is recomputed from it;
      no other field is touched, and an unmodified body leaves the post as it was. */
  function SaveHook(doc: Post, bodyModified: bool): (saved: Post)
    ensures saved.(readingTime := doc.readingTime) == doc
    ensures bodyModified ==> ReadingTimeCurrent(saved)
    ensures !bodyModified ==> saved == doc
  {
    if bodyModified then doc.(readingTime := Some(ReadingTimeOf(doc.body))) else doc
  }

  /** The stored estimate decodes back to the minute count it was made from. */
  lemma StoredReadingTimeDecodes(body: string)
    ensures AllDigits(ReadingTimeOf(body))
    ensures ParseDecimal(ReadingTimeOf(body)) == ReadingTime.CalculateReadingTime(body)
  {
    ParseDecimalString(ReadingTime.CalculateReadingTime(body));
  }

  // ---------------------------------------------------------------------------
  // Validation

  /** The state a new post gets: `state || 'draft'`, then the enum check. */
  function StateOnCreate(requested: Option<string>): (r: Option<State>)
    ensures !Truthy(requested) ==> r == Some(DefaultState)
    ensures Truthy(requested) ==> (r.Some? <==> requested.value in {"draft", "published"})
    ensures Truthy(requested) && r.Some? ==> StateName(r.value) == requested.value
  {
    if Truthy(requested) then ParseState(requested.value) else Some(DefaultState)
  }

  /** The validators a new document runs: title and body are required (a
      missing or empty string fails), and the defaulted state must be in the enum. */
  predicate ValidNew(input: PostInput) {
    Truthy(input.title) && Truthy(input.body) && StateOnCreate(input.state).Some?
  }

  /** The validators an update runs (`runValidators`): only the paths it sets
      are checked, so a supplied title or body must be non-empty and a supplied
      state must be one of the two spellings. */
  predicate ValidPatch(input: PostInput) {
    && (input.title.Some? ==> input.title.value != [])
    && (input.body.Some? ==> input.body.value != [])
    && (input.state.Some? ==> ParseState(input.state.value).Some?)
  }

  // ---------------------------------------------------------------------------
  // The unique index on title

  /** Some post other than `except` already has `title`. */
  predicate TitleTaken(posts: Posts, title: string, except: Option<PostId>) {
    exists id :: id in posts && Some(id) != except && posts[id].title == title
  }

  /** No two stored posts share a title. */
  ghost predicate UniqueTitles(posts: Posts) {
    forall a, b :: a in posts && b in posts && a != b ==> posts[a].title != posts[b].title
  }
}

=== FILE: error_handler.dfy ===
/** The production branch of the global error middleware: how a thrown error is
    turned into the HTTP status, the status discriminator and the message of the
    JSON reply. Logging is left out. */
module ErrorHandler {
  import opened Text
  import opened Errors

  /** The message of a reply. The texts built from store error details (the
      offending path and value, the duplicated value, the validator messages)
      are kept abstract; the fixed texts are the constants below. */
  datatype MessageKind =
    | OwnMessage(text: string)
    | InvalidIdMessage
    | DuplicateValueMessage
    | InvalidInputMessage
    | InvalidTokenMessage
    | ExpiredTokenMessage
    | GenericMessage

  const InvalidTokenText := "Invalid token. Please login again!"
  const ExpiredTokenText := "Your token has expired! Please login again."
  const GenericText := "Something went very wrong! Please try again later."

  datatype Reply = Reply(httpStatus: int, status: string, message: MessageKind)

  /** `err.statusCode || 500`: a missing or zero status code becomes 500. */
  function StatusCodeOrDefault(err: AppError): (c: int)
    ensures err.statusCode.None? ==> c == 500
    ensures err.statusCode.Some? ==> c == if err.statusCode.value == 0 then 500 else err.statusCode.value
  {
    match err.statusCode
    case Some(c) => if c != 0 then c else 500
    case None => 500
  }

  /** `err.status || 'error'`: a missing or empty status becomes 'error'. */
  function StatusOrDefault(err: AppError): (s: string)
    ensures err.status.None? ==> s == "error"
    ensures err.status.Some? ==> s == if err.status.value == [] then "error" else err.status.value
  {
    match err.status
    case Some(s) => if s != [] then s else "error"
    case None => "error"
  }

  predicate IsTokenError(err: AppError) {
    err.name == "JsonWebTokenError" || err.name == "TokenExpiredError"
  }

  /** The store errors the handler rewrites into a 400 'fail' reply. */
  predicate IsStoreInputError(err: AppError) {
    err.name == "CastError" || err.code == Some(11000) || err.name == "ValidationError"
  }

  /** The working copy `{ ...err }` with the fields the handler may overwrite. */
  datatype Shaped = Shaped(statusCode: int, status: string, message: MessageKind, isOperational: bool)

  /** The copy after the handler's five checks, run in source order; a later
      check that applies replaces what an earlier one wrote. */
  function Reshape(err: AppError): Shaped {
    var copy := Shaped(StatusCodeOrDefault(err), StatusOrDefault(err), OwnMessage(err.message), err.isOperational);
    var afterCast := if err.name == "CastError" then Shaped(400, "fail", InvalidIdMessage, true) else copy;
    var afterDuplicate := if err.code == Some(11000) then Shaped(400, "fail", DuplicateValueMessage, true) else afterCast;
    var afterValidation := if err.name == "ValidationError" then Shaped(400, "fail", InvalidInputMessage, true) else afterDuplicate;
    var afterJwt := if err.name == "JsonWebTokenError" then Shaped(401, "fail", InvalidTokenMessage, true) else afterValidation;
    if err.name == "TokenExpiredError" then Shaped(401, "fail", ExpiredTokenMessage, true) else afterJwt
  }

  /** errorHandler in production: token errors are 401 'fail', store input
      errors 400 'fail', other operational errors keep their own status code,
      status and message (after the defaults), and everything else is a generic
      500 whatever status code it carried. */
  function Classify(err: AppError): (r: Reply)
    ensures err.name == "JsonWebTokenError" ==> r == Reply(401, "fail", InvalidTokenMessage)
    ensures err.name == "TokenExpiredError" ==> r == Reply(401, "fail", ExpiredTokenMessage)
    ensures IsStoreInputError(err) && !IsTokenError(err) ==> r.httpStatus == 400 && r.status == "fail"
    ensures !IsTokenError(err) && !IsStoreInputError(err) && err.isOperational ==>
              r == Reply(StatusCodeOrDefault(err), StatusOrDefault(err), OwnMessage(err.message))
    ensures !IsTokenError(err) && !IsStoreInputError(err) && !err.isOperational ==>
              r == Reply(500, "error", GenericMessage)
    ensures r.httpStatus in {400, 401, 500} || Some(r.httpStatus) == err.statusCode
  {
    var e := Reshape(err);
    if e.isOperational then Reply(e.statusCode, e.status, e.message)
    else Reply(500, "error", GenericMessage)
  }

  /** The same decision written as a priority list, strongest rule first. */
  function ClassifyByPriority(err: AppError): Reply {
    if err.name == "TokenExpiredError" then Reply(401, "fail", ExpiredTokenMessage)
    else if err.name == "JsonWebTokenError" then Reply(401, "fail", InvalidTokenMessage)
    else if err.name == "ValidationError" then Reply(400, "fail", InvalidInputMessage)
    else if err.code == Some(11000) then Reply(400, "fail", DuplicateValueMessage)
    else if err.name == "CastError" then Reply(400, "fail", InvalidIdMessage)
    else if err.isOperational then Reply(StatusCodeOrDefault(err), StatusOrDefault(err), OwnMessage(err.message))
    else Reply(500, "error", GenericMessage)
  }

  /** Running the overrides in source order agrees with the priority list. */
  lemma ClassifyIsPriorityList(err: AppError)
    ensures Classify(err) == ClassifyByPriority(err)
  {
  }

  /** The failures the controllers and the guard build reach the client unchanged. */
  lemma HandBuiltFailuresPassThrough(code: int, message: string)
    requires code != 0
    ensures Classify(Operational(code, message)) == Reply(code, "fail", OwnMessage(message))
  {
  }

  /** An operational error that sets neither status code nor status answers 500 'error'
      with its own message. */
  lemma MissingFieldsDefault(name: string, message: string)
    requires name != "CastError" && name != "ValidationError"
    requires name != "JsonWebTokenError" && name != "TokenExpiredError"
    ensures Classify(AppError(name, None, None, None, true, message)) == Reply(500, "error", OwnMessage(message))
  {
  }
}

=== FILE: errors.dfy ===
/** The errors that travel to the error middleware: the operational failures the
    controllers and the guard build by hand, and the errors the document store
    throws for malformed ids, malformed search patterns, duplicate keys and failed
    schema validation. */
module Errors {
  import opened Text

  /** The fields of a thrown error that the error middleware reads. A field the
      thrower never set is `None` (or `false` for `isOperational`). */
  datatype AppError = AppError(
    name: string,
    code: Option<int>,
    statusCode: Option<int>,
    status: Option<string>,
    isOperational: bool,
    message: string)

  /** What a handler produces: a value, or the error it passes to `next`. */
  datatype Outcome<+T> = Done(value: T) | Failed(error: AppError)

  /** `new Error(message)` with `statusCode`, status 'fail' and `isOperational` set,
      the shape every hand-built failure in the controllers and guard has. */
  function Operational(statusCode: int, message: string): AppError {
    AppError("Error", None, Some(statusCode), Some("fail"), true, message)
  }

  const BlogNotFound: AppError := Operational(404, "Blog not found")
  const NotAllowedToUpdate: AppError := Operational(403, "You are not authorized to update this blog")
  const NotAllowedToDelete: AppError := Operational(403, "You are not authorized to delete this blog")
  const NoToken: AppError := Operational(401, "Not authorized, no token")
  const UserGone: AppError := Operational(401, "User no longer exists")
  const TokenFailed: AppError := Operational(401, "Not authorized, token failed")

  /** The store could not cast `value` at `path` to an ObjectId. */
  function CastFailure(path: string, value: string): AppError {
    AppError("CastError", None, None, None, false,
      "Cast to ObjectId failed for value \"" + value + "\" at path \"" + path + "\"")
  }

  /** The unique index on `field` already holds `value` (server error code 11000). */
  function DuplicateKey(field: string, value: string): AppError {
    AppError("MongoServerError", Some(11000), None, None, false,
      "E11000 duplicate key error: " + field + " \"" + value + "\"")
  }

  /** The store refused a search term as a regular expression (for example an
      unbalanced parenthesis). It is a server error whose code is not 11000 and
      which nobody marks operational. */
  const InvalidPattern: AppError :=
    AppError("MongoServerError", None, None, None, false, "Regular expression is invalid")

  /** A schema validator (required or enum) rejected the document or update. */
  const ValidationFailure: AppError :=
    AppError("ValidationError", None, None, None, false, "Blog validation failed")
}

=== FILE: listing.dfy ===
/** What the store does for a listing query: find the matching posts, sort them
    by the requested key, skip and limit, and count the matches. The order of
    posts with equal keys is the store's to choose; the contracts fix only what
    the store promises. */
module Listing {
  import opened Text
  import opened BlogModel

  /** A stored post together with its id, as a listing returns it. */
  datatype Entry = Entry(id: PostId, post: Post)

  /** The sort specifications the handlers hand to the store. */
  datatype SortOrder = ByReadCountDesc | ByReadingTimeAsc | ByTimestampDesc

  /** One page of a listing and the count of all matches, as the handlers reply. */
  datatype Page = Page(data: seq<Entry>, page: nat, limit: nat, total: nat)

  const DefaultPage: nat := 1
  const DefaultLimit: nat := 20

  // ---------------------------------------------------------------------------
  // Order

  /** Ascending order on an optional String field: a missing value sorts first,
      present values compare as strings. */
  predicate OptLexLe(a: Option<string>, b: Option<string>) {
    a.None? || (b.Some? && LexLe(a.value, b.value))
  }

  /** `a` may be listed before `b` under `order`. */
  predicate Precedes(order: SortOrder, a: Post, b: Post) {
    match order
    case ByReadCountDesc => a.readCount >= b.readCount
    case ByReadingTimeAsc => OptLexLe(a.readingTime, b.readingTime)
    case ByTimestampDesc => a.timestamp >= b.timestamp
  }

  lemma PrecedesTotal(order: SortOrder, a: Post, b: Post)
    ensures Precedes(order, a, b) || Precedes(order, b, a)
  {
    if order.ByReadingTimeAsc? && a.readingTime.Some? && b.readingTime.Some? {
      LexLeTotal(a.readingTime.value, b.readingTime.value);
    }
  }

  lemma PrecedesTransitive(order: SortOrder, a: Post, b: Post, c: Post)
    requires Precedes(order, a, b) && Precedes(order, b, c)
    ensures Precedes(order, a, c)
  {
    if order.ByReadingTimeAsc? && a.readingTime.Some? {
      LexLeTransitive(a.readingTime.value, b.readingTime.value, c.readingTime.value);
    }
  }

  predicate Sorted(order: SortOrder, s: seq<Entry>) {
    forall i, j :: 0 <= i < j < |s| ==> Precedes(order, s[i].post, s[j].post)
  }

  /** Every entry of `s` may follow `x`. */
  predicate Leads(order: SortOrder, x: Post, s: seq<Entry>) {
    forall i :: 0 <= i < |s| ==> Precedes(order, x, s[i].post)
  }

  lemma LeadsPermutation(order: SortOrder, x: Post, s: seq<Entry>, e: Entry, r: seq<Entry>)
    requires Leads(order, x, s) && Precedes(order, x, e.post)
    requires multiset(r) == multiset(s) + multiset{e}
    ensures Leads(order, x, r)
  {
    forall i | 0 <= i < |r|
      ensures Precedes(order, x, r[i].post)
    {
      assert r[i] in multiset(r);
      if r[i] != e {
        assert r[i] in multiset(s);
        var j :| 0 <= j < |s| && s[j] == r[i];
      }
    }
  }

  /** Insert `e` into a sorted sequence. */
  function Insert(order: SortOrder, e: Entry, s: seq<Entry>): (r: seq<Entry>)
    requires Sorted(order, s)
    ensures Sorted(order, r)
    ensures multiset(r) == multiset(s) + multiset{e}
  {
    if |s| == 0 then [e]
    else if Precedes(order, e.post, s[0].post) then
      assert Leads(order, e.post, s) by {
        forall j | 0 <= j < |s| ensures Precedes(order, e.post, s[j].post) {
          if j > 0 { PrecedesTransitive(order, e.post, s[0].post, s[j].post); }
        }
      }
      [e] + s
    else
      var tail := Insert(order, e, s[1..]);
      assert s == [s[0]] + s[1..];
      assert Leads(order, s[0].post, tail) by {
        PrecedesTotal(order, e.post, s[0].post);
        assert Leads(order, s[0].post, s[1..]);
        LeadsPermutation(order, s[0].post, s[1..], e, tail);
      }
      [s[0]] + tail
  }

  /** The store's sort: a sorted rearrangement of `s`. */
  function SortEntries(order: SortOrder, s: seq<Entry>): (r: seq<Entry>)
    ensures Sorted(order, r)
    ensures multiset(r) == multiset(s)
  {
    if |s| == 0 then []
    else
      assert s == [s[0]] + s[1..];
      Insert(order, s[0], SortEntries(order, s[1..]))
  }

  // ---------------------------------------------------------------------------
  // Paging

  /** `.skip(skip).limit(limit)`: the entries from position `skip` on, at most
      `limit` of them; a limit of 0 sets no bound. */
  function Window<T>(s: seq<T>, skip: nat, limit: nat): (w: seq<T>)
    ensures limit > 0 ==> |w| <= limit
    ensures |w| == if skip >= |s| then 0 else if limit == 0 || |s| - skip <= limit then |s| - skip else limit
    ensures forall i :: 0 <= i < |w| ==> w[i] == s[skip + i]
  {
    if skip >= |s| then []
    else if limit == 0 || |s| - skip <= limit then s[skip..]
    else s[skip..skip + limit]
  }

  /** `(page - 1) * limit`. */
  function Skip(page: nat, limit: nat): nat
    requires page >= 1
  {
    (page - 1) * limit
  }

  /** A window of a sorted sequence is sorted and holds only its entries. */
  lemma WindowOfSorted(order: SortOrder, s: seq<Entry>, skip: nat, limit: nat)
    requires Sorted(order, s)
    ensures Sorted(order, Window(s, skip, limit))
    ensures forall e :: e in Window(s, skip, limit) ==> e in s
  {
    var w := Window(s, skip, limit);
    forall e | e in w ensures e in s {
      var i :| 0 <= i < |w| && w[i] == e;
      assert s[skip + i] == e;
    }
  }

  // ---------------------------------------------------------------------------
  // Finding

  /** `all` lists every post whose id is in `ids` exactly once, and nothing else. */
  ghost predicate ListsExactly(posts: Posts, ids: set<PostId>, all: seq<Entry>) {
    forall e :: multiset(all)[e] == if e.id in ids && e.id in posts && e.post == posts[e.id] then 1 else 0
  }

  /** Every entry of an exact listing is a stored post with a selected id. */
  lemma MembersOfListing(posts: Posts, ids: set<PostId>, all: seq<Entry>)
    requires ListsExactly(posts, ids, all)
    ensures forall e :: e in all ==> e.id in ids && e.id in posts && e.post == posts[e.id]
  {
    forall e | e in all ensures e.id in ids && e.id in posts && e.post == posts[e.id] {
      assert multiset(all)[e] > 0;
    }
  }

  /** `find(query)`: the posts with the selected ids, one entry each, in no particular order. */
  method Collect(posts: Posts, ids: set<PostId>) returns (es: seq<Entry>)
    requires ids <= posts.Keys
    ensures |es| == |ids|
    ensures ListsExactly(posts, ids, es)
  {
    es := [];
    var rest := ids;
    ghost var done: set<PostId> := {};
    while rest != {}
      invariant rest <= ids && done == ids - rest
      invariant |es| == |done|
      invariant forall e :: multiset(es)[e] == if e.id in done && e.id in posts && e.post == posts[e.id] then 1 else 0
      decreases |rest|
    {
      var id :| id in rest;
      var entry := Entry(id, posts[id]);
      assert id !in done;
      es := es + [entry];
      rest := rest - {id};
      done := done + {id};
    }
  }

  /** `find(query).sort(order)`: every selected post exactly once, in order. */
  method FindSorted(posts: Posts, ids: set<PostId>, order: SortOrder) returns (all: seq<Entry>)
    requires ids <= posts.Keys
    ensures |all| == |ids|
    ensures ListsExactly(posts, ids, all)
    ensures Sorted(order, all)
  {
    var found := Collect(posts, ids);
    all := SortEntries(order, found);
    assert |all| == |multiset(all)| == |multiset(found)| == |found|;
  }

  /** Find, sort, skip and limit, and count: the reply of both listing handlers. */
  method Query(posts: Posts, ids: set<PostId>, order: SortOrder, page: nat, limit: nat) returns (r: Page)
    requires ids <= posts.Keys
    requires page >= 1
    ensures r.page == page && r.limit == limit
    ensures r.total == |ids|
    ensures limit > 0 ==> |r.data| <= limit
    ensures Sorted(order, r.data)
    ensures forall e :: e in r.data ==> e.id in ids && e.id in posts && e.post == posts[e.id]
    ensures exists all :: ListsExactly(posts, ids, all) && Sorted(order, all) && r.data == Window(all, Skip(page, limit), limit)
  {
    var all := FindSorted(posts, ids, order);
    var data := Window(all, Skip(page, limit), limit);
    WindowOfSorted(order, all, Skip(page, limit), limit);
    MembersOfListing(posts, ids, all);
    r := Page(data, page, limit, |ids|);
  }

  /** Sorting on the String-typed reading time compares numerals as text: a
      ten-minute post sorts ahead of a nine-minute one. */
  lemma ReadingTimeSortsAsText()
    ensures LexLe(DecimalString(10), DecimalString(9))
    ensures !LexLe(DecimalString(9), DecimalString(10))
  {
    assert DecimalString(10) == ['1', '0'];
    assert DecimalString(9) == ['9'];
  }
}

=== FILE: reading_time.dfy ===
/** The reading-time estimate of a post body: the number of words, counted by
    trimming the body and splitting it on runs of white space, divided by 200
    words a minute and rounded up, with 1 as the fallback. */
module ReadingTime {
  import opened Text

  const WordsPerMinute: nat := 200

  /** First position at or after `i` holding white space, or |s|. */
  function NextSpace(s: string, i: nat): (j: nat)
    requires i <= |s|
    ensures i <= j <= |s|
    ensures forall k :: i <= k < j ==> !IsSpace(s[k])
    ensures j < |s| ==> IsSpace(s[j])
    decreases |s| - i
  {
    if i == |s| || IsSpace(s[i]) then i else NextSpace(s, i + 1)
  }

  /** First position at or after `i` holding something other than white space, or |s|. */
  function NextNonSpace(s: string, i: nat): (j: nat)
    requires i <= |s|
    ensures i <= j <= |s|
    ensures forall k :: i <= k < j ==> IsSpace(s[k])
    ensures j < |s| ==> !IsSpace(s[j])
    decreases |s| - i
  {
    if i == |s| || !IsSpace(s[i]) then i else NextNonSpace(s, i + 1)
  }

  /** `s.trimStart()`. */
  function TrimStart(s: string): (r: string)
    ensures r == [] || !IsSpace(r[0])
  {
    s[NextNonSpace(s, 0)..]
  }

  /** `s.trimEnd()`: the longest prefix of `s` that does not end in white space;
      everything dropped is white space. */
  function TrimEnd(s: string): (r: string)
    ensures |r| <= |s| && r == s[..|r|]
    ensures r == [] || !IsSpace(r[|r| - 1])
    ensures AllSpace(s[|r|..])
    decreases |s|
  {
    if |s| > 0 && IsSpace(s[|s| - 1]) then
      var r := TrimEnd(s[..|s| - 1]);
      assert s[|r|..] == s[..|s| - 1][|r|..] + [s[|s| - 1]];
      r
    else s
  }

  /** `s.trim()`. */
  function Trim(s: string): (r: string)
    ensures r == [] || (!IsSpace(r[0]) && !IsSpace(r[|r| - 1]))
  {
    TrimEnd(TrimStart(s))
  }

  /** `s.split(/\s+/)`: the pieces between maximal runs of white space. */
  function SplitOnSpaceRuns(s: string): (pieces: seq<string>)
    ensures |pieces| >= 1
    decreases |s|
  {
    var p := NextSpace(s, 0);
    if p == |s| then [s]
    else [s[..p]] + SplitOnSpaceRuns(s[NextNonSpace(s, p)..])
  }

  /** `content.trim().split(/\s+/).length`. */
  function WordCount(content: string): (n: nat)
    ensures n >= 1
  {
    |SplitOnSpaceRuns(Trim(content))|
  }

  /** `Math.ceil(words / 200) || 1`. */
  function MinutesFor(words: nat): (minutes: nat)
    ensures minutes >= 1
    ensures words >= 1 ==> (minutes - 1) * WordsPerMinute < words <= minutes * WordsPerMinute
    ensures words == 0 ==> minutes == 1
  {
    var ceiling := (words + WordsPerMinute - 1) / WordsPerMinute;
    if ceiling == 0 then 1 else ceiling
  }

  /** calculateReadingTime(content): never below one minute, and exactly the
      number of 200-word minutes needed to cover the word count. */
  function CalculateReadingTime(content: string): (minutes: nat)
    ensures minutes >= 1
    ensures (minutes - 1) * WordsPerMinute < WordCount(content) <= minutes * WordsPerMinute
  {
    MinutesFor(WordCount(content))
  }

  /** The `|| 1` fallback never decides the result: the split always yields at
      least one piece, so the rounded-up quotient is already positive. */
  lemma FallbackUnused(content: string)
    ensures (WordCount(content) + WordsPerMinute - 1) / WordsPerMinute >= 1
  {
  }

  /** A full page of 200 words is one minute; the 201st word starts a second one. */
  lemma MinuteBoundaries()
    ensures MinutesFor(200) == 1
    ensures MinutesFor(201) == 2
    ensures MinutesFor(400) == 2
  {
  }

  /** More words never give a shorter estimate. */
  lemma MinutesMonotone(w1: nat, w2: nat)
    requires w1 <= w2
    ensures MinutesFor(w1) <= MinutesFor(w2)
  {
  }

  // ---------------------------------------------------------------------------
  // Reference count of words

  /** The number of maximal runs of non-white-space characters in `s`: the
      words a reader sees, counted independently of trimming and splitting. */
  function Runs(s: string): nat
    decreases |s|
  {
    if |s| == 0 then 0
    else if IsSpace(s[0]) then Runs(s[1..])
    else 1 + Runs(s[NextSpace(s, 0)..])
  }

  /** Leading white space holds no word. */
  lemma {:induction false} RunsAfterSpaces(w: string, b: string)
    requires AllSpace(w)
    ensures Runs(w + b) == Runs(b)
    decreases |w|
  {
    if |w| > 0 {
      assert (w + b)[0] == w[0];
      assert (w + b)[1..] == w[1..] + b;
      RunsAfterSpaces(w[1..], b);
    } else {
      assert w + b == b;
    }
  }

  /** A word ends at the same place once white space follows the string. */
  lemma {:induction false} NextSpaceBeforeSpace(a: string, r: string, i: nat)
    requires i <= |a|
    requires |r| > 0 && IsSpace(r[0])
    ensures NextSpace(a + r, i) == NextSpace(a, i)
    decreases |a| - i
  {
    if i < |a| && !IsSpace(a[i]) {
      NextSpaceBeforeSpace(a, r, i + 1);
    }
  }

  /** Two texts separated by white space hold as many words as both together. */
  lemma {:induction false} RunsAcrossSpaces(a: string, w: string, b: string)
    requires |w| > 0 && AllSpace(w)
    ensures Runs(a + w + b) == Runs(a) + Runs(b)
    decreases |a|
  {
    var s := a + w + b;
    if |a| == 0 {
      assert s == w + b;
      RunsAfterSpaces(w, b);
    } else if IsSpace(a[0]) {
      assert s[0] == a[0];
      assert s[1..] == a[1..] + w + b;
      RunsAcrossSpaces(a[1..], w, b);
    } else {
      var k := NextSpace(a, 0);
      assert s == a + (w + b);
      NextSpaceBeforeSpace(a, w + b, 0);
      assert s[0] == a[0];
      assert s[k..] == a[k..] + w + b;
      RunsAcrossSpaces(a[k..], w, b);
    }
  }

  /** Trailing white space holds no word. */
  lemma RunsBeforeSpaces(a: string, w: string)
    requires AllSpace(w)
    ensures Runs(a + w) == Runs(a)
  {
    if |w| > 0 {
      RunsAcrossSpaces(a, w, []);
      assert a + w + [] == a + w;
    } else {
      assert a + w == a;
    }
  }

  /** Trimming the start removes white space only, so no word is lost. */
  lemma RunsOfTrimStart(s: string)
    ensures Runs(TrimStart(s)) == Runs(s)
  {
    var k := NextNonSpace(s, 0);
    assert s == s[..k] + s[k..];
    assert AllSpace(s[..k]);
    RunsAfterSpaces(s[..k], s[k..]);
  }

  /** Trimming the end removes white space only, so no word is lost. */
  lemma RunsOfTrimEnd(u: string)
    ensures Runs(TrimEnd(u)) == Runs(u)
  {
    var r := TrimEnd(u);
    assert u == r + u[|r|..];
    RunsBeforeSpaces(r, u[|r|..]);
  }

  /** Trimming removes white space only, so no word is lost. */
  lemma RunsOfTrim(s: string)
    ensures Runs(Trim(s)) == Runs(s)
  {
    RunsOfTrimStart(s);
    RunsOfTrimEnd(TrimStart(s));
  }

  /** On a trimmed string the split yields one piece per word, and one piece for
      the empty string. */
  lemma {:induction false} SplitCountsRuns(t: string)
    requires t == [] || (!IsSpace(t[0]) && !IsSpace(t[|t| - 1]))
    ensures |SplitOnSpaceRuns(t)| == if Runs(t) == 0 then 1 else Runs(t)
    decreases |t|
  {
    var p := NextSpace(t, 0);
    if p == |t| {
      assert SplitOnSpaceRuns(t) == [t];
      if |t| > 0 {
        assert Runs(t) == 1 + Runs(t[p..]);
        assert t[p..] == [];
      }
    } else {
      var q := NextNonSpace(t, p);
      assert q < |t| by {
        assert p < |t| - 1 && !IsSpace(t[|t| - 1]);
      }
      var rest := t[q..];
      assert |SplitOnSpaceRuns(t)| == 1 + |SplitOnSpaceRuns(rest)|;
      assert rest[0] == t[q] && rest[|rest| - 1] == t[|t| - 1];
      SplitCountsRuns(rest);
      assert Runs(rest) >= 1;
      assert Runs(t) == 1 + Runs(t[p..]);
      RunsOfSpaceGap(t, p, q);
    }
  }

  /** Skipping a white-space gap inside a string loses no word. */
  lemma RunsOfSpaceGap(t: string, p: nat, q: nat)
    requires p <= q <= |t|
    requires forall k :: p <= k < q ==> IsSpace(t[k])
    ensures Runs(t[p..]) == Runs(t[q..])
  {
    assert t[p..] == t[p..q] + t[q..];
    RunsAfterSpaces(t[p..q], t[q..]);
  }

  /** The word count is the number of words a reader sees, except that a body
      with no words still counts as one word. */
  lemma WordCountIsRuns(content: string)
    ensures WordCount(content) == if Runs(content) == 0 then 1 else Runs(content)
  {
    RunsOfTrim(content);
    SplitCountsRuns(Trim(content));
  }

  /** An empty or white-space-only body counts as one word and reads in one minute. */
  lemma BlankBodyIsOneMinute(content: string)
    requires AllSpace(content)
    ensures WordCount(content) == 1
    ensures CalculateReadingTime(content) == 1
  {
    RunsAfterSpaces(content, []);
    assert content + [] == content;
    WordCountIsRuns(content);
  }

  /** White space around the body does not change the estimate. */
  lemma OuterSpaceIgnored(w1: string, s: string, w2: string)
    requires AllSpace(w1) && AllSpace(w2)
    ensures WordCount(w1 + s + w2) == WordCount(s)
    ensures CalculateReadingTime(w1 + s + w2) == CalculateReadingTime(s)
  {
    assert w1 + s + w2 == w1 + (s + w2);
    RunsAfterSpaces(w1, s + w2);
    RunsBeforeSpaces(s, w2);
    WordCountIsRuns(w1 + s + w2);
    WordCountIsRuns(s);
  }

  /** The length of a white-space run between two words does not change the estimate. */
  lemma SpaceRunLengthIgnored(a: string, w1: string, w2: string, b: string)
    requires |w1| > 0 && AllSpace(w1)
    requires |w2| > 0 && AllSpace(w2)
    ensures WordCount(a + w1 + b) == WordCount(a + w2 + b)
    ensures CalculateReadingTime(a + w1 + b) == CalculateReadingTime(a + w2 + b)
  {
    RunsAcrossSpaces(a, w1, b);
    RunsAcrossSpaces(a, w2, b);
    WordCountIsRuns(a + w1 + b);
    WordCountIsRuns(a + w2 + b);
  }

  /** Appending more text after white space never shortens the estimate. */
  lemma LongerBodyNotShorter(s: string, w: string, t: string)
    requires |w| > 0 && AllSpace(w)
    ensures CalculateReadingTime(s) <= CalculateReadingTime(s + w + t)
  {
    RunsAcrossSpaces(s, w, t);
    WordCountIsRuns(s);
    WordCountIsRuns(s + w + t);
    MinutesMonotone(WordCount(s), WordCount(s + w + t));
  }
}

=== FILE: routes.dfy ===
/** The blog router mounted at /api/blogs, and one request served end to end:
    the route picks a guard and a handler, the guard runs, the handler runs
    against the collection, and a failure goes through the error middleware. */
module BlogRoutes {
  import opened Text
  import opened Errors
  import opened ErrorHandler
  import opened BlogModel
  import opened Listing
  import opened BlogController
  import opened AuthGuard

  datatype Verb = GET | POST | PATCH | DELETE | OtherVerb(name: string)

  /** A request's verb as the HTTP parser delivers it: a verb the router has a
      constructor for is never spelled as `OtherVerb`. */
  type RequestVerb = v: Verb | !v.OtherVerb? || v.name !in ["GET", "POST", "PATCH", "DELETE"] witness GET

  /** Which middleware runs before the handler. */
  datatype Guard = NoGuard | OptionalGuard | MandatoryGuard

  datatype Handler =
    | MyBlogs
    | AllBlogs
    | OneBlog(id: PostId)
    | NewBlog
    | EditBlog(id: PostId)
    | RemoveBlog(id: PostId)
    | AllowedVerbs(verbs: seq<Verb>)   // the router's own reply to OPTIONS
    | NoHandler   // no route of the router matched

  datatype Route = Route(guard: Guard, handler: Handler)

  const Options: RequestVerb := OtherVerb("OPTIONS")

  /** The verbs of the routes whose path matches `path`, in router order: the
      list the router answers an OPTIONS request with. */
  function RoutedVerbs(path: seq<string>): (verbs: seq<Verb>)
    requires |path| <= 1
  {
    if path == [] then [GET, POST] else [GET, PATCH, DELETE]
  }

  /** The router, tried top to bottom; `path` is the list of segments after the
      mount point. The two public GET routes come first; `GET /me` is listed
      before `GET /:id`, so it never reaches the post handler. After them
      `router.use(protect)` puts every other request behind the mandatory guard,
      including requests no route matches. An OPTIONS request that no route
      handles, on a path some route matches, is answered by the router itself
      with the verbs of the matching routes. */
  function Dispatch(verb: RequestVerb, path: seq<string>): (r: Route)
    ensures verb == GET && path == [] ==> r == Route(NoGuard, AllBlogs)
    ensures verb == GET && path == ["me"] ==> r == Route(MandatoryGuard, MyBlogs)
    ensures verb == GET && |path| == 1 && path[0] != "me" ==> r == Route(OptionalGuard, OneBlog(path[0]))
    ensures verb == POST && path == [] ==> r == Route(MandatoryGuard, NewBlog)
    ensures verb == PATCH && |path| == 1 ==> r == Route(MandatoryGuard, EditBlog(path[0]))
    ensures verb == DELETE && |path| == 1 ==> r == Route(MandatoryGuard, RemoveBlog(path[0]))
    ensures verb == Options && |path| <= 1 ==> r == Route(MandatoryGuard, AllowedVerbs(RoutedVerbs(path)))
    ensures r.guard == NoGuard <==> verb == GET && path == []
    ensures r.guard == OptionalGuard <==> r.handler.OneBlog?
    ensures verb != GET ==> r.guard == MandatoryGuard
    ensures r.handler.NoHandler? <==>
              || |path| >= 2
              || (verb == POST && path != [])
              || ((verb == PATCH || verb == DELETE) && path == [])
              || (verb.OtherVerb? && verb != Options)
  {
    if verb == GET && path == ["me"] then Route(MandatoryGuard, MyBlogs)
    else if verb == GET && path == [] then Route(NoGuard, AllBlogs)
    else if verb == GET && |path| == 1 then Route(OptionalGuard, OneBlog(path[0]))
    else if verb == POST && path == [] then Route(MandatoryGuard, NewBlog)
    else if verb == PATCH && |path| == 1 then Route(MandatoryGuard, EditBlog(path[0]))
    else if verb == DELETE && |path| == 1 then Route(MandatoryGuard, RemoveBlog(path[0]))
    else if verb == Options && |path| <= 1 then Route(MandatoryGuard, AllowedVerbs(RoutedVerbs(path)))
    else Route(MandatoryGuard, NoHandler)
  }

  /** The OPTIONS reply lists exactly the verbs with a route for the path. */
  lemma OptionsListsRoutedVerbs(path: seq<string>, verb: RequestVerb)
    requires |path| <= 1 && !verb.OtherVerb?
    ensures verb in RoutedVerbs(path) <==> !Dispatch(verb, path).handler.NoHandler?
  {
  }

  /** A single-segment GET reaches the post handler exactly when the segment is not `me`. */
  lemma MeIsNeverAnId(segment: string)
    ensures Dispatch(GET, [segment]).handler == OneBlog(segment) <==> segment != "me"
    ensures segment == "me" ==> Dispatch(GET, [segment]) == Route(MandatoryGuard, MyBlogs)
  {
  }

  /** Everything one request may carry. `state` is the owner listing's filter. */
  datatype Request = Request(
    verb: RequestVerb,
    path: seq<string>,
    authorization: Option<string>,
    query: ListQuery,
    state: Option<string>,
    input: PostInput)

  /** What the surroundings supply: token verification, the search matcher and
      pattern check, the id the database gives a new post, and the current time. */
  datatype Env = Env(
    verify: string -> VerifyOutcome,
    matches: (string, string) -> bool,
    compiles: string -> bool,
    freshId: PostId,
    now: int)

  datatype Db = Db(posts: Posts, users: Users)

  datatype Body =
    | PostData(post: Post)
    | PageData(page: Page)
    | NoData
    | Allowed(verbs: seq<Verb>)   // the comma-separated verb list, also sent as the Allow header
    | ErrorMessage(message: MessageKind)
    | DefaultNotFound   // the framework's own "Cannot <verb> <path>" page, not a JSON envelope

  /** The HTTP status, the `status` discriminator of the JSON envelope, and the rest. */
  datatype Response = Response(httpStatus: int, status: string, body: Body)

  /** A failure as the error middleware renders it. */
  function ErrorResponse(err: AppError): (resp: Response)
    ensures resp.body.ErrorMessage?
    ensures resp.httpStatus == Classify(err).httpStatus
  {
    var reply := Classify(err);
    Response(reply.httpStatus, reply.status, ErrorMessage(reply.message))
  }

  /** The response a handler's outcome is rendered as: the post under the
      success status, or the failure through the error middleware. */
  predicate RendersPost(resp: Response, result: Outcome<Post>, okStatus: int) {
    match result
    case Done(post) => resp == Response(okStatus, "success", PostData(post))
    case Failed(err) => resp == ErrorResponse(err)
  }

  /** The same for a listing: the page under 200, or the failure through the
      error middleware. */
  predicate RendersPage(resp: Response, result: Outcome<Page>) {
    match result
    case Done(page) => resp == Response(200, "success", PageData(page))
    case Failed(err) => resp == ErrorResponse(err)
  }

  /** `GET /`: the public listing, rendered. */
  method ServePublicListing(env: Env, db: Db, req: Request) returns (resp: Response)
    requires PagingWellFormed(req.query.page, req.query.limit)
    ensures exists r :: PublicListing(db.posts, db.users, req.query, env.matches, env.compiles, r) && RendersPage(resp, r)
  {
    var listing := GetAllBlogs(db.posts, db.users, req.query, env.matches, env.compiles);
    match listing {
      case Done(page) => resp := Response(200, "success", PageData(page));
      case Failed(err) => resp := ErrorResponse(err);
    }
  }

  /** `GET /me`: the caller's own listing, always answered 200. */
  method ServeOwnListing(db: Db, caller: UserId, req: Request) returns (resp: Response)
    requires PagingWellFormed(req.query.page, req.query.limit)
    ensures exists r :: OwnListing(db.posts, caller, req.state, req.query.page, req.query.limit, r)
                        && resp == Response(200, "success", PageData(r))
  {
    var page := GetMyBlogs(db.posts, caller, req.state, req.query.page, req.query.limit);
    resp := Response(200, "success", PageData(page));
  }

  /** The user the request ends up with once the route's guard has run, or the
      rejection of the mandatory guard. */
  function RunGuard(guard: Guard, authorization: Option<string>, verify: string -> VerifyOutcome, users: Users): (g: GuardResult)
    ensures guard == NoGuard ==> g == Proceed(None)
    ensures guard == OptionalGuard ==> g == OptionalProtect(authorization, verify, users)
    ensures guard == MandatoryGuard ==> g == Protect(authorization, verify, users)
    ensures guard == MandatoryGuard && g.Proceed? ==> g.caller.Some?
  {
    match guard
    case NoGuard => Proceed(None)
    case OptionalGuard => OptionalProtect(authorization, verify, users)
    case MandatoryGuard => Protect(authorization, verify, users)
  }

  /** One request against the blog router. */
  method Serve(env: Env, db: Db, req: Request) returns (resp: Response, after: Db)
    requires env.freshId !in db.posts
    requires PagingWellFormed(req.query.page, req.query.limit)
    ensures after.users == db.users
    ensures UniqueTitles(db.posts) ==> UniqueTitles(after.posts)
    ensures CanonicalKeys(db.posts) && IsCanonicalId(env.freshId) ==> CanonicalKeys(after.posts)
    ensures Dispatch(req.verb, req.path).guard == MandatoryGuard
            && Protect(req.authorization, env.verify, db.users).Reject? ==>
              resp.httpStatus == 401 && after == db
    ensures Dispatch(req.verb, req.path).handler.OneBlog? ==>
              resp.httpStatus in {200, 400, 404}
    ensures resp.httpStatus >= 400 && !Dispatch(req.verb, req.path).handler.OneBlog? ==> after == db
    ensures Dispatch(req.verb, req.path).handler.NoHandler? && Protect(req.authorization, env.verify, db.users).Proceed? ==>
              resp == Response(404, "", DefaultNotFound) && after == db
    ensures req.verb == Options && |req.path| <= 1 && Protect(req.authorization, env.verify, db.users).Proceed? ==>
              resp == Response(200, "", Allowed(RoutedVerbs(req.path))) && after == db
    ensures var g := Protect(req.authorization, env.verify, db.users);
            Dispatch(req.verb, req.path).handler == NewBlog && g.Proceed? ==>
              var step := CreateBlog(db.posts, g.caller.value.id, env.freshId, env.now, req.input);
              after.posts == step.posts && RendersPost(resp, step.result, 201)
    ensures Dispatch(req.verb, req.path).handler.OneBlog? ==>
              var step := GetBlogById(db.posts, Dispatch(req.verb, req.path).handler.id);
              after.posts == step.posts && RendersPost(resp, step.result, 200)
    ensures var g := Protect(req.authorization, env.verify, db.users);
            Dispatch(req.verb, req.path).handler.EditBlog? && g.Proceed? ==>
              var step := UpdateBlog(db.posts, g.caller.value.id, Dispatch(req.verb, req.path).handler.id, req.input);
              after.posts == step.posts && RendersPost(resp, step.result, 200)
    ensures var g := Protect(req.authorization, env.verify, db.users);
            Dispatch(req.verb, req.path).handler.RemoveBlog? && g.Proceed? ==>
              var step := DeleteBlog(db.posts, g.caller.value.id, Dispatch(req.verb, req.path).handler.id);
              && after.posts == step.posts
              && (step.result.Done? ==> resp == Response(200, "success", NoData))
              && (step.result.Failed? ==> resp == ErrorResponse(step.result.error))
    ensures Dispatch(req.verb, req.path).handler.AllBlogs? || Dispatch(req.verb, req.path).handler.MyBlogs? ==>
              after == db
    ensures Dispatch(req.verb, req.path).handler.MyBlogs? && Protect(req.authorization, env.verify, db.users).Proceed? ==>
              resp.httpStatus == 200 && resp.body.PageData?
    ensures Dispatch(req.verb, req.path).handler.AllBlogs? ==>
              exists r :: PublicListing(db.posts, db.users, req.query, env.matches, env.compiles, r) && RendersPage(resp, r)
    ensures var g := Protect(req.authorization, env.verify, db.users);
            Dispatch(req.verb, req.path).handler.MyBlogs? && g.Proceed? ==>
              exists r :: OwnListing(db.posts, g.caller.value.id, req.state, req.query.page, req.query.limit, r)
                          && resp == Response(200, "success", PageData(r))
  {
    var route := Dispatch(req.verb, req.path);
    var g := RunGuard(route.guard, req.authorization, env.verify, db.users);
    if g.Reject? {
      return ErrorResponse(g.error), db;
    }
    var caller := g.caller;
    match route.handler {
      case MyBlogs =>
        resp := ServeOwnListing(db, caller.value.id, req);
        after := db;
      case AllBlogs =>
        resp := ServePublicListing(env, db, req);
        after := db;
      case OneBlog(id) =>
        var step := GetBlogById(db.posts, id);
        after := Db(step.posts, db.users);
        match step.result {
          case Done(post) => resp := Response(200, "success", PostData(post));
          case Failed(err) => resp := ErrorResponse(err);
        }
      case NewBlog =>
        var step := CreateBlog(db.posts, caller.value.id, env.freshId, env.now, req.input);
        after := Db(step.posts, db.users);
        match step.result {
          case Done(post) => resp := Response(201, "success", PostData(post));
          case Failed(err) => resp := ErrorResponse(err);
        }
      case EditBlog(id) =>
        var step := UpdateBlog(db.posts, caller.value.id, id, req.input);
        after := Db(step.posts, db.users);
        match step.result {
          case Done(post) => resp := Response(200, "success", PostData(post));
          case Failed(err) => resp := ErrorResponse(err);
        }
      case RemoveBlog(id) =>
        var step := DeleteBlog(db.posts, caller.value.id, id);
        after := Db(step.posts, db.users);
        match step.result {
          case Done(_) => resp := Response(200, "success", NoData);
          case Failed(err) => resp := ErrorResponse(err);
        }
      case AllowedVerbs(verbs) =>
        resp, after := Response(200, "", Allowed(verbs)), db;
      case NoHandler =>
        resp, after := Response(404, "", DefaultNotFound), db;
    }
  }
}

=== FILE: text.dfy ===
/** Small string and value helpers shared by the rest of the model: optional
    values with JavaScript truthiness, JavaScript's white-space class,
    `String.prototype.split` with a one-character separator, the code-point
    order the document store sorts strings by, decimal rendering of numbers
    kept in String fields, and the textual shape of an ObjectId. */
module Text {

  datatype Option<+T> = None | Some(value: T) {
    /** The carried value, or `default` when absent. */
    function GetOr(default: T): T {
      match this
      case Some(v) => v
      case None => default
    }
  }

  /** JavaScript truthiness of an optional string: a missing value and "" are both falsy. */
  predicate Truthy(o: Option<string>) {
    o.Some? && o.value != []
  }

  // ---------------------------------------------------------------------------
  // White space

  /** The characters JavaScript's `\s` matches and `String.prototype.trim`
      removes: the WhiteSpace and LineTerminator productions of ECMAScript. */
  predicate IsSpace(c: char) {
    || c == '\t' || c == '\n' || c == '\U{000B}' || c == '\U{000C}' || c == '\r'
    || c == ' ' || c == '\U{00A0}' || c == '\U{1680}'
    || ('\U{2000}' <= c <= '\U{200A}')
    || c == '\U{2028}' || c == '\U{2029}' || c == '\U{202F}' || c == '\U{205F}'
    || c == '\U{3000}' || c == '\U{FEFF}'
  }

  predicate AllSpace(s: string) {
    forall i :: 0 <= i < |s| ==> IsSpace(s[i])
  }

  predicate StartsWith(s: string, prefix: string) {
    |prefix| <= |s| && s[..|prefix|] == prefix
  }

  // ---------------------------------------------------------------------------
  // Splitting on a one-character separator

  /** Position of the first `c` in `s`, or |s| when `s` has none. */
  function IndexOf(s: string, c: char): (i: nat)
    ensures i <= |s|
    ensures i < |s| ==> s[i] == c
    ensures forall k :: 0 <= k < i ==> s[k] != c
  {
    if |s| == 0 then 0
    else if s[0] == c then 0
    else 1 + IndexOf(s[1..], c)
  }

  /** `s.split(sep)` for a one-character string separator: the pieces between
      consecutive separators, so there is always at least one piece, and "" splits
      into [""]. */
  function Split(s: string, sep: char): (pieces: seq<string>)
    ensures |pieces| >= 1
    ensures forall k :: 0 <= k < |pieces| ==> sep !in pieces[k]
    decreases |s|
  {
    var i := IndexOf(s, sep);
    if i == |s| then [s]
    else [s[..i]] + Split(s[i + 1..], sep)
  }

  /** One step of the split: the first piece runs up to the first separator,
      and the remaining pieces are the split of what follows it. */
  lemma SplitStep(s: string, sep: char)
    ensures Split(s, sep)[0] == s[..IndexOf(s, sep)]
    ensures IndexOf(s, sep) < |s| ==> Split(s, sep)[1..] == Split(s[IndexOf(s, sep) + 1..], sep)
    ensures IndexOf(s, sep) == |s| ==> |Split(s, sep)| == 1
  {
  }

  /** `pieces.join(sep)`. */
  function Join(pieces: seq<string>, sep: char): string
  {
    if |pieces| == 0 then []
    else if |pieces| == 1 then pieces[0]
    else pieces[0] + [sep] + Join(pieces[1..], sep)
  }

  /** Splitting loses nothing: joining the pieces back gives the original string. */
  lemma {:induction false} JoinSplit(s: string, sep: char)
    ensures Join(Split(s, sep), sep) == s
    decreases |s|
  {
    var i := IndexOf(s, sep);
    if i < |s| {
      assert Split(s, sep) == [s[..i]] + Split(s[i + 1..], sep);
      JoinSplit(s[i + 1..], sep);
      assert Join(Split(s, sep), sep) == s[..i] + [sep] + Join(Split(s[i + 1..], sep), sep);
      assert s == s[..i] + [sep] + s[i + 1..];
    }
  }

  /** Where the first separator sits once a separator-free prefix is put in front. */
  lemma {:induction false} IndexOfAfterPrefix(a: string, t: string, c: char)
    requires c !in a
    ensures IndexOf(a + t, c) == |a| + IndexOf(t, c)
    decreases |a|
  {
    if |a| > 0 {
      assert (a + t)[0] == a[0];
      assert (a + t)[1..] == a[1..] + t;
      IndexOfAfterPrefix(a[1..], t, c);
    } else {
      assert a + t == t;
    }
  }

  /** A separator-free piece followed by a separator is split off whole. */
  lemma SplitAfterPiece(a: string, t: string, sep: char)
    requires sep !in a
    ensures Split(a + [sep] + t, sep) == [a] + Split(t, sep)
  {
    var s := a + [sep] + t;
    assert s == a + ([sep] + t);
    IndexOfAfterPrefix(a, [sep] + t, sep);
    assert IndexOf(s, sep) == |a|;
    assert s[..|a|] == a && s[|a| + 1..] == t;
  }

  /** A separator-free piece followed by nothing or by a separator is the first piece. */
  lemma FirstPiece(a: string, t: string, sep: char)
    requires sep !in a
    requires t == [] || t[0] == sep
    ensures Split(a + t, sep)[0] == a
  {
    IndexOfAfterPrefix(a, t, sep);
    assert IndexOf(a + t, sep) == |a|;
    SplitStep(a + t, sep);
    assert (a + t)[..|a|] == a;
  }

  /** Splitting a string made by joining separator-free pieces gives those pieces back. */
  lemma {:induction false} SplitJoin(pieces: seq<string>, sep: char)
    requires |pieces| >= 1
    requires forall k :: 0 <= k < |pieces| ==> sep !in pieces[k]
    ensures Split(Join(pieces, sep), sep) == pieces
  {
    if |pieces| == 1 {
      IndexOfAfterPrefix(pieces[0], [], sep);
      assert pieces[0] + [] == pieces[0];
    } else {
      var rest := Join(pieces[1..], sep);
      var s := pieces[0] + [sep] + rest;
      assert Join(pieces, sep) == s;
      assert s == pieces[0] + ([sep] + rest);
      IndexOfAfterPrefix(pieces[0], [sep] + rest, sep);
      assert IndexOf([sep] + rest, sep) == 0;
      var i := |pieces[0]|;
      assert IndexOf(s, sep) == i;
      SplitStep(s, sep);
      assert s[..i] == pieces[0];
      assert s[i + 1..] == rest;
      SplitJoin(pieces[1..], sep);
      var split := Split(s, sep);
      assert split[0] == pieces[0] && split[1..] == pieces[1..];
      assert split == [split[0]] + split[1..];
      assert pieces == [pieces[0]] + pieces[1..];
    }
  }

  // ---------------------------------------------------------------------------
  // String order

  /** Code-point order on strings. It agrees with the byte order of the UTF-8
      encodings, which is how the document store compares String fields. */
  predicate LexLe(a: string, b: string)
    decreases |a|
  {
    |a| == 0 || (|b| > 0 && (a[0] < b[0] || (a[0] == b[0] && LexLe(a[1..], b[1..]))))
  }

  lemma {:induction false} LexLeTotal(a: string, b: string)
    ensures LexLe(a, b) || LexLe(b, a)
    decreases |a|
  {
    if |a| > 0 && |b| > 0 && a[0] == b[0] {
      LexLeTotal(a[1..], b[1..]);
    }
  }

  lemma {:induction false} LexLeTransitive(a: string, b: string, c: string)
    requires LexLe(a, b) && LexLe(b, c)
    ensures LexLe(a, c)
    decreases |a|
  {
    if |a| > 0 && a[0] == b[0] && b[0] == c[0] {
      LexLeTransitive(a[1..], b[1..], c[1..]);
    }
  }

  // ---------------------------------------------------------------------------
  // Decimal numerals

  function DigitChar(d: nat): (c: char)
    requires d < 10
    ensures '0' <= c <= '9'
  {
    (48 + d) as char
  }

  predicate AllDigits(s: string) {
    forall i :: 0 <= i < |s| ==> '0' <= s[i] <= '9'
  }

  /** `String(n)` for a non-negative integer: its decimal numeral. */
  function DecimalString(n: nat): (s: string)
    ensures |s| >= 1 && AllDigits(s)
    ensures s[0] == '0' ==> n == 0
  {
    if n < 10 then [DigitChar(n)]
    else DecimalString(n / 10) + [DigitChar(n % 10)]
  }

  /** The value of a decimal numeral; the reference reading of `DecimalString`. */
  function ParseDecimal(s: string): nat
    requires AllDigits(s)
  {
    if |s| == 0 then 0
    else 10 * ParseDecimal(s[..|s| - 1]) + (s[|s| - 1] as int - 48)
  }

  lemma {:induction false} ParseDecimalString(n: nat)
    ensures ParseDecimal(DecimalString(n)) == n
  {
    if n >= 10 {
      var s := DecimalString(n);
      ParseDecimalString(n / 10);
      assert s[..|s| - 1] == DecimalString(n / 10);
    }
  }

  // ---------------------------------------------------------------------------
  // Identifiers

  predicate IsHexDigit(c: char) {
    ('0' <= c <= '9') || ('a' <= c <= 'f') || ('A' <= c <= 'F')
  }

  /** A string that casts to an ObjectId: exactly 24 hexadecimal digits, in
      either case. Any other string used as an id makes the store raise a CastError. */
  predicate IsObjectId(s: string) {
    |s| == 24 && forall i :: 0 <= i < |s| ==> IsHexDigit(s[i])
  }

  /** The spelling the store gives an ObjectId: 24 lower-case hexadecimal digits. */
  predicate IsCanonicalId(s: string) {
    |s| == 24 && forall i :: 0 <= i < |s| ==> ('0' <= s[i] <= '9') || ('a' <= s[i] <= 'f')
  }

  function LowerHex(c: char): (d: char)
    ensures 'A' <= c <= 'F' ==> 'a' <= d <= 'f'
    ensures !('A' <= c <= 'F') ==> d == c
  {
    if 'A' <= c <= 'F' then (c as int + 32) as char else c
  }

  /** The ObjectId a string casts to, written canonically: its hexadecimal
      digits in lower case. Two spellings name the same post exactly when
      their canonical forms agree. */
  function CanonicalId(s: string): (c: string)
    ensures |c| == |s|
    ensures forall i :: 0 <= i < |s| ==> c[i] == LowerHex(s[i])
    ensures IsObjectId(s) ==> IsCanonicalId(c)
  {
    seq(|s|, i requires 0 <= i < |s| => LowerHex(s[i]))
  }

  /** A canonical id is its own canonical form. */
  lemma CanonicalIdFixesCanonical(s: string)
    requires IsCanonicalId(s)
    ensures CanonicalId(s) == s
    ensures IsObjectId(s)
  {
  }

  /** Canonicalising twice changes nothing more. */
  lemma CanonicalIdIdempotent(s: string)
    ensures CanonicalId(CanonicalId(s)) == CanonicalId(s)
  {
  }

  /** An id written with upper-case digits is the same ObjectId as its
      lower-case spelling. */
  lemma UpperCaseSpellingIsSameId()
    ensures IsObjectId("507F1F77BCF86CD799439011")
    ensures CanonicalId("507F1F77BCF86CD799439011") == "507f1f77bcf86cd799439011"
  {
  }
}
